=== FILE: README.md ===
# Product catalogue of the Marketplace inventory UI, modelled in Dafny

This project models the logic of a single-page inventory-management front end.
The model covers:

- the product store, which holds the in-memory catalogue and the flags for the busy state, the two dialogs and the selected product;
- the create/edit product dialog, with its field rules, prefill and record construction;
- the per-row Copy/Edit/Delete menu and the delete confirmation dialog;
- the category and status filter selections and the strip that summarises them;
- the icon picker;
- the status cell and column configuration of the product table;
- the rows-per-page selector;
- the login store, the route guard and the credential lookup of the login page.

Each React event handler is modelled as a pure transition over immutable datatypes. Every store operation is atomic.

One module per source file:

| module | file | models |
|---|---|---|
| `Wrappers` | `wrappers.dfy` | `Option` (a TypeScript `T \| null`) and `Result` (a value or a thrown/reported error) |
| `Decimal` | `decimal.dfy` | `n.toString()` and `+text` on natural numbers, and their round trip |
| `IconSelector` | `icon_selector.dfy` | icon nodes, `convertIconToString`, `convertStringToIcon`, `triggerIconSelection`, `updateSelection`, `isAllIconValid` |
| `Columns` | `columns.dfy` | the `Product` record, its category and status enumerations, the status cell, the column filters |
| `ProductStore` | `product_store.dfy` | the store state, its setters, `loadProducts`, `addProduct`, `updateProduct`, `deleteProduct` |
| `ProductDialog` | `product_dialog.dfy` | the form schema, the prefill effect, `onSubmit` for create and edit, Cancel |
| `ProductDropDown` | `product_drop_down.dfy` | `handleClickedItem` for Copy, Edit and Delete |
| `DeleteDialog` | `delete_dialog.dfy` | `deleteProductFx`, Cancel, the open-state mirror |
| `Selection` | `selection.dfy` | the checkbox toggle and clear shared by both filter drop-downs |
| `CategoryDropDown`, `StatusDropDown`, `FilterArea` | `category_drop_down.dfy`, `status_drop_down.dfy`, `filter_area.dfy` | the filter options, `returnColor`, `resetFilters` and the chip summary |
| `PaginationSelection` | `pagination_selection.dfy` | the page-size options and the `setPagination` update |
| `AuthStore`, `ProtectedRoute`, `LoginPage` | `auth_store.dfy`, `protected_route.dfy`, `login_page.dfy` | login and logout, the access gate, the mock-user lookup |

Representation choices:

- A price is an integer number of cents. The price and quantity inputs are registered with `valueAsNumber`, so an empty or non-numeric box reaches the schema as `NaN`, never as a string.
- A quantity is a `real`, or `NaN`, as the numeric input reports it. This keeps the "must be an integer" rule meaningful.
- Ids, timestamps and the fetched product list are parameters. They stand in for `nanoid()`, `new Date()` and the mock fetch.
- A React icon node is reduced to what the code inspects. An icon is one of four kinds of node:
  - a function-component element, with a `displayName` (empty when unset) and a `name`;
  - another element;
  - `null` or `undefined`, where reading `type` throws;
  - another node (text, a number, a boolean), whose `type` is undefined.
- A component element also carries a `ref`, its object identity. The picker compares nodes with `===`. In the model, two separately created elements of the same component are different nodes.

Where the code differs from what one might expect, the model follows the code:

- `updateProduct` and `deleteProduct` resolve with `success: true` even when no product has the id. There is no NotFound outcome.
- `addProduct` does not reject a duplicate id.
- `loadProducts` never touches `isLoading` and has no failure path.
- Changing the page size keeps `pageIndex`. The page index is not reset to 0.
- The category filter values are lower-case (`"electronics"`), while records store capitalised categories (`"Electronics"`). `CategoryDropDown.FilterValuesNeverEqualRecordCategories` proves that no filter value equals a record's category string.
- The status filter colours Draft `gray-100`, while the table cell uses `gray-200`. `StatusDropDown.ColoursAgainstStatusCell` states this.
- `convertIconToString` returns `displayName || name`, but `convertStringToIcon` matches on `name` only. `IconSelector.NameRoundTrip` proves the round trip for components without a display name. `IconSelector.DisplayNameBreaksRoundTrip` proves that, in any list, the round trip fails when the display name differs from the name.
- `convertStringToIcon` throws a TypeError on a `null` or `undefined` entry that comes before the match. `IconSelector.NullishEntryStopsLookup` proves this. `triggerIconSelection` catches the error and changes nothing.

## Model

| member | source | states |
|---|---|---|
| `ProductStore.Initial` | src/stores/useProductStore.ts:22-33 | the store starts with an empty catalogue, nothing loading, both dialogs closed and no selection |
| `ProductStore.SetOpenDialog` | src/stores/useProductStore.ts:27-29 | the delete-dialog flag takes the given value and nothing else changes |
| `ProductStore.SetOpenProductDialog` | src/stores/useProductStore.ts:31-33 | the product-dialog flag takes the given value and nothing else changes |
| `ProductStore.SetSelectedProduct` | src/stores/useProductStore.ts:34-36 | the selection takes the given product or null and nothing else changes |
| `ProductStore.SetAllProducts` | src/stores/useProductStore.ts:37-39 | the catalogue takes the given list and nothing else changes |
| `ProductStore.LoadProducts` | src/stores/useProductStore.ts:40-43 | the fetched list replaces the catalogue; unlike the mutations it leaves `isLoading` as it was, and dialogs and selection are untouched |
| `ProductStore.AddProduct` | src/stores/useProductStore.ts:44-53 | the old catalogue is a prefix of the new one and the product is its single new last element (ids unchecked); success; busy flag cleared; dialogs and selection untouched |
| `ProductStore.ReplaceById` | src/stores/useProductStore.ts:58-62 | same length; position by position, a product with the updated id becomes the update and any other stays |
| `ProductStore.UpdateProduct` | src/stores/useProductStore.ts:54-69 | pointwise replacement by id, ids and order unchanged, an absent id leaves the list as it was and still reports success; busy flag, product dialog and selection cleared on every path |
| `ProductStore.RemoveById` | src/stores/useProductStore.ts:74-78 | a product survives iff it was present and its id differs; an absent id returns the list unchanged |
| `ProductStore.RemoveByIdAppend` | src/stores/useProductStore.ts:74-78 | removal distributes over concatenation, so the survivors keep their relative order |
| `ProductStore.DeleteProduct` | src/stores/useProductStore.ts:70-85 | exactly the products with the id disappear, an absent id is a no-op reporting success; busy flag, delete dialog and selection cleared on every path |
| `ProductStore.AddThenDelete` | src/stores/useProductStore.ts:44-85 | adding a product with a fresh id and deleting that id restores the catalogue exactly |
| `ProductStore.AddKeepsUniqueIds` | src/stores/useProductStore.ts:48 | appending a product with a fresh id keeps ids unique |
| `ProductStore.UpdateKeepsUniqueIds` | src/stores/useProductStore.ts:58-62 | updating keeps the ids of a uniquely keyed catalogue unique |
| `ProductStore.DeleteKeepsUniqueIds` | src/stores/useProductStore.ts:74-78 | deleting keeps ids unique, and deleting a present id shortens a uniquely keyed catalogue by exactly one |
| `ProductStore.RemoveUniqueId` | src/stores/useProductStore.ts:74-78 | with unique ids, removing a present id removes exactly one product |
| `ProductStore.ReplaceWithSelf` | src/stores/useProductStore.ts:58-62 | replacing a product by itself in a uniquely keyed catalogue changes nothing |
| `ProductStore.DeleteIdempotent` | src/stores/useProductStore.ts:70-85 | deleting the same id twice yields the state of deleting it once |
| `Columns.ParseStatus` | src/components/products/columns.tsx:22 | a string reads as a status exactly when it is that status's record string |
| `Columns.ParseCategory` | src/components/products/columns.tsx:13-21 | a string reads as a category exactly when it is that category's record string |
| `Columns.EnumerationsComplete` | src/components/products/columns.tsx:13-22 | there are exactly 8 categories and 3 statuses, each listed once with a distinct string |
| `Columns.StatusCell` | src/components/products/columns.tsx:83-104 | check glyph iff Published, cross iff Inactive, inbox for Draft and every other string; green, red and gray-200 go with those glyphs |
| `Columns.UnknownStatusLooksLikeDraft` | src/components/products/columns.tsx:93-103 | a string that is no status renders exactly like Draft |
| `Columns.StatusCellInjective` | src/components/products/columns.tsx:88-100 | distinct statuses render as distinct badges |
| `Columns.MultiSelectKeys` | src/components/products/columns.tsx:29-132 | a key is listed iff some column with that key filters with `multiSelect` |
| `Columns.MultiSelectColumnsAreCategoryAndStatus` | src/components/products/columns.tsx:74-82 | only the category and status columns filter with `multiSelect`; every column but the actions column sorts |
| `ProductDialog.TextErrors` | src/components/productDialog/ProductDialog.tsx:31-34 | a name or supplier has no issue iff its length is between 1 and 100 |
| `ProductDialog.SkuPatternMatches` | src/components/productDialog/ProductDialog.tsx:38 | the pattern matches iff the SKU is non-empty and every character is a letter, a digit, `-` or `_` |
| `ProductDialog.SkuErrors` | src/components/productDialog/ProductDialog.tsx:35-38 | a SKU has no issue iff it follows the SKU rule; an empty SKU reports both "required" and "alphanumeric" |
| `ProductDialog.QuantityErrors` | src/components/productDialog/ProductDialog.tsx:43-46 | a quantity has no issue iff it is a number that is an integer and not negative; a non-number reports only that |
| `ProductDialog.PriceErrors` | src/components/productDialog/ProductDialog.tsx:47-64 | a price has no issue iff it is a number that is not negative; NaN fails the string-or-number union with "Invalid input" alone, and a negative value reports "Price cannot be negative" alone |
| `ProductDialog.Errors` | src/components/productDialog/ProductDialog.tsx:30-65 | the issue list is empty iff every field rule holds |
| `ProductDialog.MessagesIdentifyErrors` | src/components/productDialog/ProductDialog.tsx:30-64 | no two issues of the schema share a message, so an issue's message identifies the issue |
| `ProductDialog.Validate` | src/components/productDialog/ProductDialog.tsx:30-65 | success iff every field rule holds, with the payload equal to the form values; otherwise the non-empty issue list |
| `ProductDialog.Prefill` | src/components/productDialog/ProductDialog.tsx:103-126 | a selection fills every field, the tab, the category and the icon from the record; no selection resets to empty text, quantity 0, price 0, Published, Electronics, and keeps the icon |
| `ProductDialog.DefaultFormErrors` | src/components/productDialog/ProductDialog.tsx:72-78 | the default form fails on exactly the three empty text fields, with the SKU failing twice |
| `ProductDialog.BuildCreate` | src/components/productDialog/ProductDialog.tsx:131-143 | a new record has the supplied id and timestamp and every other field from the form, tab, category and icon |
| `ProductDialog.BuildEdit` | src/components/productDialog/ProductDialog.tsx:155-167 | an edited record keeps the selected product's id and creation time and takes every other field as a new record would |
| `ProductDialog.OnSubmit` | src/components/productDialog/ProductDialog.tsx:128-184 | with the dialog open: without a selection the new record is appended and the Cancel button is clicked; with one, the record with the selected id is replaced and the ids are unchanged; on both paths the product dialog ends closed with nothing selected, nothing busy, the form, tab and category at their defaults and the delete dialog untouched |
| `ProductDialog.Submit` | src/components/productDialog/ProductDialog.tsx:217 | with the dialog open, submitting reaches the handler iff the form is valid; otherwise the issues are reported |
| `ProductDialog.HandleReset` | src/components/productDialog/ProductDialog.tsx:186-189 | clears the selection, keeps the catalogue and both dialog flags, and returns the form to its defaults; the tab and category are reset only when a product was selected (the effect re-runs), and are otherwise kept |
| `ProductDialog.CancelButton` | src/components/productDialog/ProductDialog.tsx:201-245 | a Cancel click on the open dialog clears the selection and closes the product dialog through `onOpenChange`, after which form, tab and category are at their defaults; catalogue, busy flag, delete dialog and chosen icon are unchanged |
| `ProductDialog.EditRoundTrip` | src/components/productDialog/ProductDialog.tsx:103-167 | prefilling from a valid product and submitting unchanged validates and rebuilds exactly that product |
| `ProductDialog.UnchangedEditKeepsCatalogue` | src/components/productDialog/ProductDialog.tsx:156-169 | an unchanged edit of a catalogued product leaves a uniquely keyed catalogue exactly as it was |
| `ProductDropDown.CopyOf` | src/components/products/ProductDropDown.tsx:45-50 | the copy equals the row except for a fresh id, a new timestamp and the name with " (copy)" appended |
| `ProductDropDown.HandleClickedItem` | src/components/products/ProductDropDown.tsx:38-66 | Delete opens the delete dialog on the row, Edit opens the product dialog on the row, Copy appends the copy and clears the busy flag, and any other label changes nothing |
| `ProductDropDown.LabelsDistinct` | src/components/products/ProductDropDown.tsx:31-36 | the three menu labels are pairwise distinct |
| `ProductDropDown.CopyDiffersFromOriginal` | src/components/products/ProductDropDown.tsx:48 | a copy is never equal to its original |
| `ProductDropDown.CopyKeepsUniqueIds` | src/components/products/ProductDropDown.tsx:45-52 | copying with a fresh id keeps ids unique and leaves the original in place |
| `DeleteDialog.DeleteProductFx` | src/components/DeleteDialog.tsx:25-36 | with no selection nothing is deleted; otherwise exactly the selected product's id is deleted |
| `DeleteDialog.Confirm` | src/components/DeleteDialog.tsx:25-52 | the Delete button always closes the dialog; without a selection nothing else changes; with one, the products with that id are gone and the selection is cleared |
| `DeleteDialog.Cancel` | src/components/DeleteDialog.tsx:49 | Cancel clears the selection and changes nothing else |
| `DeleteDialog.OnOpenChange` | src/components/DeleteDialog.tsx:39 | the dialog's open state is copied into the store verbatim |
| `DeleteDialog.DeleteRowFlow` | src/components/DeleteDialog.tsx:25-27 | choosing Delete on a row and confirming removes that row's id, keeps the rest and closes the dialog |
| `DeleteDialog.CancelRowFlow` | src/components/DeleteDialog.tsx:39-51 | after Delete on a row the dialog is open on that row; pressing Cancel drops the selection and closes the dialog through `onOpenChange(false)`, with the catalogue unchanged |
| `Selection.Without` | src/components/CategoryDropDown.tsx:46 | a value survives iff it was selected and differs from the dropped one; an absent value changes nothing |
| `Selection.WithoutAppend` | src/components/CategoryDropDown.tsx:46 | dropping a value distributes over concatenation, so the rest keep their order |
| `Selection.WithoutKeepsDistinct` | src/components/CategoryDropDown.tsx:46 | dropping a value keeps a duplicate-free selection duplicate-free |
| `Selection.Toggle` | src/components/CategoryDropDown.tsx:43-51 | a selected value is dropped everywhere, an unselected one appended at the end; its membership flips and every other value's membership stays (the status filter's handler, src/components/StatusDropDown.tsx:58-66, is the same code) |
| `Selection.Clear` | src/components/CategoryDropDown.tsx:53 | clearing yields the empty selection (so does the status filter's, src/components/StatusDropDown.tsx:68) |
| `Selection.ToggleTwiceRestores` | src/components/CategoryDropDown.tsx:43-51 | toggling an unselected value twice restores the selection |
| `Selection.ToggleKeepsDistinct` | src/components/CategoryDropDown.tsx:45-47 | a toggle keeps a duplicate-free selection duplicate-free |
| `Selection.ToggleOffDistinct` | src/components/CategoryDropDown.tsx:45-46 | in a duplicate-free selection, unticking removes exactly one entry |
| `CategoryDropDown.CaptionsFollowProductCategories` | src/components/CategoryDropDown.tsx:26-35 | the 8 option captions are the record category strings in declaration order |
| `CategoryDropDown.ValuesAreLoweredCaptions` | src/components/CategoryDropDown.tsx:26-35 | each option value is the lower-case form of its caption, and all values are distinct |
| `CategoryDropDown.FilterValuesNeverEqualRecordCategories` | src/components/CategoryDropDown.tsx:26-35 | no selectable value equals any category string stored in a product |
| `CategoryDropDown.HandleCheckboxChange` | src/components/CategoryDropDown.tsx:43-51 | the clicked value's checkbox flips (appended when ticked, removed everywhere when unticked) and no other checkbox changes |
| `CategoryDropDown.ClearFilters` | src/components/CategoryDropDown.tsx:53 | after clearing no checkbox is ticked |
| `StatusDropDown.ReturnColor` | src/components/StatusDropDown.tsx:44-56 | a colour class exists iff the string is a status: green for Published, red for Inactive, gray-100 for Draft |
| `StatusDropDown.OptionsFollowProductStatuses` | src/components/StatusDropDown.tsx:15-31 | the options are exactly Published, Inactive and Draft in order, with the same glyphs as the table cell |
| `StatusDropDown.ColoursAgainstStatusCell` | src/components/StatusDropDown.tsx:44-56 | the filter and table cell colours agree for Published and Inactive and differ for Draft |
| `FilterArea.ResetFilters` | src/components/products/FilterArea.tsx:18-21 | both selections become empty |
| `FilterArea.CountLabelReadsBack` | src/components/products/FilterArea.tsx:42 | the count badge ends in " Selected" and the number before it reads back as the count |
| `FilterArea.Badges` | src/components/products/FilterArea.tsx:31-45 | at most two badges: each value in order below three selected, else the single "N Selected" badge with N the length |
| `FilterArea.Render` | src/components/products/FilterArea.tsx:24-80 | a group is shown iff its selection is non-empty and then has a badge; Reset is shown iff either group is |
| `FilterArea.ResetHidesEverything` | src/components/products/FilterArea.tsx:18-21 | after Reset no group and no Reset button is shown |
| `FilterArea.BadgesDetermineCount` | src/components/products/FilterArea.tsx:31-45 | the number of selected values can be recovered from a shown group's badges |
| `IconSelector.ConvertIconToString` | src/components/productDialog/IconSelector.tsx:104-113 | a string exists iff the node is a function-component element; it is the display name when set, else the name |
| `IconSelector.FirstStop` | src/components/productDialog/IconSelector.tsx:123-131 | the position of the first entry that is null/undefined or whose component name equals the text; every earlier entry is neither, and the position is the length when no entry stops the loop |
| `IconSelector.FindByName` | src/components/productDialog/IconSelector.tsx:123-132 | the loop's result is fixed by the first stop: a TypeError at a null/undefined entry, the node at a named entry, "not found" past the end; a returned node always has the text as its component name |
| `IconSelector.ConvertStringToIcon` | src/components/productDialog/IconSelector.tsx:116-133 | empty text, and only empty text, throws the missing-text error; otherwise the lookup loop's first stop decides; a returned node is a component with that name |
| `IconSelector.NullishEntryStopsLookup` | src/components/productDialog/IconSelector.tsx:123-124 | a null or undefined entry before any match makes the lookup throw, whatever follows it |
| `IconSelector.MarkNode` | src/components/productDialog/IconSelector.tsx:63-66 | ids and nodes kept; an entry is selected iff its node is the given one (the same element object) |
| `IconSelector.MarkDistinctNode` | src/components/productDialog/IconSelector.tsx:63-66 | when no component element object appears twice, marking an entry's component selects that entry alone |
| `IconSelector.TriggerIconSelection` | src/components/productDialog/IconSelector.tsx:59-73 | a found name selects exactly the entries holding the found node and notifies it; any lookup error (empty text, unknown name, null entry) is caught, changes nothing and notifies nobody |
| `IconSelector.TriggerSelectsExactlyOne` | src/components/productDialog/IconSelector.tsx:59-73 | when no component element object appears twice, a successful selection by name leaves exactly the found entry selected and shows its node on the button |
| `IconSelector.MarkId` | src/components/productDialog/IconSelector.tsx:146-154 | ids and nodes kept; an entry is selected iff its id is the clicked one |
| `IconSelector.NodesWithId` | src/components/productDialog/IconSelector.tsx:147-150 | every notified node belongs to an entry with the clicked id; nothing is notified iff no entry has it |
| `IconSelector.UpdateSelection` | src/components/productDialog/IconSelector.tsx:145-156 | the clicked id is selected and all others deselected; the dialog flips from its captured state iff some entry matched |
| `IconSelector.SelectedIcon` | src/components/productDialog/IconSelector.tsx:179 | the button shows the first selected entry's node, and nothing iff no entry is selected |
| `IconSelector.OnlySelected` | src/components/productDialog/IconSelector.tsx:179 | when exactly one entry is selected, the button shows its node |
| `IconSelector.ClickSelectsExactlyOne` | src/components/productDialog/IconSelector.tsx:145-156 | with unique ids, clicking an entry leaves exactly it selected, shows its node, notifies it once and flips the dialog |
| `IconSelector.NodesWithUniqueId` | src/components/productDialog/IconSelector.tsx:146-152 | with unique ids, exactly the clicked entry's node is notified |
| `IconSelector.IsAllIconValid` | src/components/productDialog/IconSelector.tsx:163-173 | the list is valid iff every entry holds a React element |
| `IconSelector.NameRoundTrip` | src/components/productDialog/IconSelector.tsx:104-133 | for a component without a display name, with no null entry and no namesake before it, its string leads back to the same node |
| `IconSelector.DisplayNameBreaksRoundTrip` | src/components/productDialog/IconSelector.tsx:108-127 | in every list, a component whose display name differs from its name is not found by its own string |
| `Decimal.NatToString` | src/components/products/PaginationSelection.tsx:22 | a non-empty digit string without a leading zero |
| `Decimal.ParseNat` | src/components/products/PaginationSelection.tsx:24 | a number is read iff the text is a non-empty digit string |
| `Decimal.ParseNatToString` | src/components/products/PaginationSelection.tsx:22-24 | reading back a rendered number gives the number |
| `Decimal.NatToStringInjective` | src/components/products/PaginationSelection.tsx:31-33 | distinct sizes render as distinct option values |
| `PaginationSelection.OptionValues` | src/components/products/PaginationSelection.tsx:31-35 | one option per size 5, 10, 15, 20, 30, 50, in order, each the size's decimal text |
| `PaginationSelection.DisplayedValue` | src/components/products/PaginationSelection.tsx:22 | the displayed value reads back as the current page size |
| `PaginationSelection.OnValueChange` | src/components/products/PaginationSelection.tsx:23-25 | the page size becomes the chosen option's size and the page index is kept, not reset |
| `PaginationSelection.SelectSize` | src/components/products/PaginationSelection.tsx:21-36 | choosing a size's option sets exactly that size, keeps the index and displays that option |
| `PaginationSelection.PageSizesIncreasing` | src/components/products/PaginationSelection.tsx:31 | the offered sizes are strictly increasing, hence distinct |
| `AuthStore.Initial` | src/stores/useAuthStore.ts:11-12 | the session starts with no user and no token |
| `AuthStore.Login` | src/stores/useAuthStore.ts:13 | login sets exactly the given user and token |
| `AuthStore.Logout` | src/stores/useAuthStore.ts:14 | logout returns to the initial state |
| `AuthStore.RunKeepsConsistent` | src/stores/useAuthStore.ts:10-15 | along any sequence of logins and logouts, the user and the token are set together or not at all |
| `AuthStore.RunAppend` | src/stores/useAuthStore.ts:13-14 | running one more event applies it to the state reached so far |
| `AuthStore.LastEventDecides` | src/stores/useAuthStore.ts:11-14 | after any history, a final logout gives the initial state and a final login gives exactly its user and token |
| `ProtectedRoute.Gate` | src/ProtectedRoute.tsx:5-12 | children render iff there is a user; otherwise redirect to /login, replacing the history entry |
| `ProtectedRoute.GateIgnoresToken` | src/ProtectedRoute.tsx:6-11 | the decision does not depend on the token |
| `ProtectedRoute.GateAfterSession` | src/ProtectedRoute.tsx:8-11 | after a final logout the gate redirects; after a final login it admits |
| `LoginPage.FindUser` | src/pages/LoginPage.tsx:44-46 | found iff some user has an equal e-mail and password, and then the first such user |
| `LoginPage.OnSubmit` | src/pages/LoginPage.tsx:41-55 | login iff a user matches, as user "1" with that user's name and token; otherwise "Invalid credential" and no login |
| `LoginPage.OnlyTestUserLogsIn` | src/pages/LoginPage.tsx:32-49 | only test@example.com with password123 logs in, always as "Test User" with "fake-jwt-token" |

## Left out

- The table's filter, sort and paginate pipeline is not modelled. It runs inside `ProductTable.tsx` and the table library, which are not part of this model. This includes the `multiSelect` filter function and the meaning of `toggleSorting`, so nothing is stated about which rows are displayed.
- Timers, promises and interleaving are not modelled. Each store operation and the login lookup is one atomic step. The busy flag is seen only in its final, cleared state, and overlapping calls are out of scope.
- `fetchProducts` and the product data file are not part of this model. `ProductStore.LoadProducts` takes the fetched list as a parameter.
- `nanoid()` and `new Date()` become parameters: a fresh id and an integer timestamp.
- `toFixed(2)` rounding and price display are floating point. A price is already integer cents, so the schema's rounding step and the `-0` it can produce are not modelled.
- `ProductDialog.TextErrors`: lengths are counted in Unicode scalar values, not UTF-16 code units as in JavaScript. The two differ for characters outside the Basic Multilingual Plane.
- The zod and react-hook-form internals are not modelled. Only the field rules, their order and which checks report together are. The login form schema (e-mail format, password length) is left out for the same reason.
- Toasts, alerts, `console.log` and the navigation to `/` after login are output sinks, not state.
- `Icons.tsx` is not part of this model. The icon list and the initially selected icon are inputs. Whether a real icon element's type is a function component depends on that file.
- The React context plumbing of the icon picker and the deferred `setSelectedIcon` in `onSelectedIcon` are not modelled. Running the `setAllIcons` updater twice is not modelled either.
- The `!iconArray` and non-array checks of the icon helpers cannot fail on a typed list. The numeric-id and boolean-flag checks of `isAllIconValid` hold by typing.
- `PaginationSelection.OnValueChange`: only the option texts are converted, which is all the selector emits. `+text` on any other string is not modelled.
- The effect in `ProductDialog` also runs when `openProductDialog` changes. `ProductDialog.Prefill` is the transition it applies, and when it is called is left to the caller.
- `if (result)` after `addProduct` and `deleteProduct` always holds, since an object is truthy. The toasts in those branches are not modelled. The click on the Cancel button after an add is modelled, as `ProductDialog.CancelButton` inside `ProductDialog.OnSubmit`.
- The two store-controlled dialogs are modelled through their `onOpenChange` bindings:
  - pressing Cancel in the delete dialog is `DeleteDialog.Cancel` followed by `DeleteDialog.OnOpenChange(false)`;
  - pressing Cancel in the product dialog is `ProductDialog.CancelButton`, which ends with `SetOpenProductDialog(false)`.
- The remaining widget state is presentation: the filter popovers' `open` flags and the layout. `Price.tsx` and `Quantity.tsx` convert their input with `valueAsNumber`. That conversion is modelled by the `NaN` cases of `PriceInput` and `NumberInput`.
- `ProductDialog.EditRoundTrip`: the mount effect of `ProductCategory.tsx` is not modelled. That effect (`ProductCategory.tsx:30-32`) sets the category to Electronics each time the dialog content mounts, and the content mounts on every open. Whether it runs before or after the prefill effect depends on the dialog library's mount timing, which is outside this model. The round trip holds only if the prefilled category survives that effect. If the mount effect runs last, an unchanged edit of a non-Electronics record stores Electronics.
- `ProductDialog.UnchangedEditKeepsCatalogue`: the same condition applies. The catalogue is unchanged only if the prefilled category survives the mount effect of `ProductCategory.tsx`.
- The form's error display is not modelled. The form shows one issue per field, chosen by the zod resolver: the first issue, and for the price union, the first branch's issue. The model lists every issue the schema reports.
- The price schema's string branch is not modelled, because the dialog never sends a string. That branch reports "Price is required" for `""` and "Price must be a number" for a non-numeric string.
- The `DialogState` form holds the values the user has entered. The form's default values, which `reset()` returns to, are not kept in `DialogState`. `ProductDialog.HandleReset` assumes they are the defaults (`DefaultForm`) when nothing is selected, because the last reset was then the effect's reset to the defaults.

=== FILE: auth_store.dfy ===
/** The session store: the logged-in user and token, with login and logout. */
module AuthStore {
  import opened Wrappers

  datatype User = User(id: string, name: string)

  datatype AuthState = AuthState(user: Option<User>, token: Option<string>)

  /** Either both the user and the token are set, or neither is. */
  predicate Consistent(s: AuthState) {
    s.user.Some? <==> s.token.Some?
  }

  function Initial(): (s: AuthState)
    ensures s.user.None? && s.token.None?
  {
    AuthState(None, None)
  }

  function Login(s: AuthState, u: User, t: string): (r: AuthState)
    ensures r.user == Some(u) && r.token == Some(t)
  {
    AuthState(Some(u), Some(t))
  }

  function Logout(s: AuthState): (r: AuthState)
    ensures r == Initial()
  {
    AuthState(None, None)
  }

  datatype Event = LoginEvent(user: User, token: string) | LogoutEvent

  function Apply(s: AuthState, e: Event): AuthState {
    match e
    case LoginEvent(u, t) => Login(s, u, t)
    case LogoutEvent => Logout(s)
  }

  /** The state after a sequence of events, applied in order. */
  function Run(s: AuthState, es: seq<Event>): AuthState
    decreases |es|
  {
    if es == [] then s else Run(Apply(s, es[0]), es[1..])
  }

  /** Every state reachable from a consistent one is consistent. */
  lemma {:induction false} RunKeepsConsistent(s: AuthState, es: seq<Event>)
    requires Consistent(s)
    ensures Consistent(Run(s, es))
    decreases |es|
  {
    if es != [] {
      RunKeepsConsistent(Apply(s, es[0]), es[1..]);
    }
  }

  lemma {:induction false} RunAppend(s: AuthState, es: seq<Event>, e: Event)
    ensures Run(s, es + [e]) == Apply(Run(s, es), e)
    decreases |es|
  {
    if es == [] {
      assert es + [e] == [e];
    } else {
      assert (es + [e])[1..] == es[1..] + [e];
      RunAppend(Apply(s, es[0]), es[1..], e);
    }
  }

  /**
   * Whatever happened before, a final logout returns to the initial state,
   * and a final login leaves exactly its user and token.
   */
  lemma LastEventDecides(s: AuthState, es: seq<Event>, u: User, t: string)
    ensures Run(s, es + [LogoutEvent]) == Initial()
    ensures Run(s, es + [LoginEvent(u, t)]) == AuthState(Some(u), Some(t))
  {
    RunAppend(s, es, LogoutEvent);
    RunAppend(s, es, LoginEvent(u, t));
  }
}

=== FILE: category_drop_down.dfy ===
/**
 * The category filter: its fixed option list, the checkbox toggle and the
 * clear action over the list of selected values.
 */
module CategoryDropDown {
  import opened Columns
  import Selection

  /** A filter option: the value kept in the selection and the caption shown. */
  datatype CategoryOption = CategoryOption(value: string, caption: string)

  const Categories: seq<CategoryOption> := [
    CategoryOption("electronics", "Electronics"),
    CategoryOption("furniture", "Furniture"),
    CategoryOption("clothing", "Clothing"),
    CategoryOption("books", "Books"),
    CategoryOption("toys", "Toys"),
    CategoryOption("beauty", "Beauty"),
    CategoryOption("sports", "Sports"),
    CategoryOption("others", "Others")
  ]

  function LowerChar(c: char): char {
    if 'A' <= c <= 'Z' then (c as int - 'A' as int + 'a' as int) as char else c
  }

  /** ASCII lower-casing. */
  function Lower(s: string): (r: string)
    ensures |r| == |s|
    ensures forall i :: 0 <= i < |s| ==> r[i] == LowerChar(s[i])
  {
    seq(|s|, i requires 0 <= i < |s| => LowerChar(s[i]))
  }

  /** The option captions are the record category strings in declaration order. */
  lemma CaptionsFollowProductCategories()
    ensures |Categories| == |AllCategories| == 8
    ensures forall i :: 0 <= i < |Categories| ==> Categories[i].caption == CategoryName(AllCategories[i])
  {
  }

  /** Each option value is the lower-case form of its caption, and no two values coincide. */
  lemma ValuesAreLoweredCaptions()
    ensures forall i :: 0 <= i < |Categories| ==> Categories[i].value == Lower(Categories[i].caption)
    ensures forall i, j :: 0 <= i < j < |Categories| ==> Categories[i].value != Categories[j].value
  {
    forall i | 0 <= i < |Categories|
      ensures Categories[i].value == Lower(Categories[i].caption)
    {
      var o := Categories[i];
      assert |Lower(o.caption)| == |o.value|;
      assert forall k :: 0 <= k < |o.value| ==> Lower(o.caption)[k] == o.value[k];
    }
  }

  /**
   * No selectable value equals the category string stored in a product: the
   * values are lower-case while records hold the capitalised names.
   */
  lemma FilterValuesNeverEqualRecordCategories(c: Category)
    ensures forall i :: 0 <= i < |Categories| ==> Categories[i].value != CategoryName(c)
  {
    forall i | 0 <= i < |Categories| ensures Categories[i].value != CategoryName(c) {
      assert 'a' <= Categories[i].value[0] <= 'z';
      assert 'A' <= CategoryName(c)[0] <= 'Z';
    }
  }

  /** Whether an option's checkbox is ticked. */
  predicate IsChecked(sel: seq<string>, value: string) {
    value in sel
  }

  /** The checkbox handler: ticks an unticked value (appended) and unticks a ticked one. */
  function HandleCheckboxChange(sel: seq<string>, value: string): (r: seq<string>)
    ensures IsChecked(r, value) <==> !IsChecked(sel, value)
    ensures forall v :: v != value ==> (IsChecked(r, v) <==> IsChecked(sel, v))
    ensures !IsChecked(sel, value) ==> r == sel + [value]
    ensures IsChecked(sel, value) ==> r == Selection.Without(sel, value)
  {
    Selection.Toggle(sel, value)
  }

  function ClearFilters(): (r: seq<string>)
    ensures forall v :: !IsChecked(r, v)
  {
    Selection.Clear()
  }
}

=== FILE: columns.dfy ===
/**
 * The product record, its enumerated category and status, the status cell of
 * the table and the table's column configuration.
 */
module Columns {
  import opened Wrappers
  import opened IconSelector

  datatype Category = Electronics | Furniture | Clothing | Books | Toys | Beauty | Sports | Others

  datatype Status = Published | Inactive | Draft

  /**
   * One catalogue entry. `price` is in integer cents (the two-decimal value the
   * form stores); `createdAt` is a timestamp supplied by the caller.
   */
  datatype Product = Product(
    id: string,
    name: string,
    supplier: string,
    sku: string,
    category: Category,
    status: Status,
    quantityInStock: int,
    price: int,
    icon: IconNode,
    createdAt: int)

  /** The string a category value has in a product record. */
  function CategoryName(c: Category): string {
    match c
    case Electronics => "Electronics"
    case Furniture => "Furniture"
    case Clothing => "Clothing"
    case Books => "Books"
    case Toys => "Toys"
    case Beauty => "Beauty"
    case Sports => "Sports"
    case Others => "Others"
  }

  /** The string a status value has in a product record. */
  function StatusName(s: Status): string {
    match s
    case Published => "Published"
    case Inactive => "Inactive"
    case Draft => "Draft"
  }

  const AllCategories: seq<Category> := [Electronics, Furniture, Clothing, Books, Toys, Beauty, Sports, Others]
  const AllStatuses: seq<Status> := [Published, Inactive, Draft]

  /** Reads a status back from its record string; other strings are no status. */
  function ParseStatus(text: string): (r: Option<Status>)
    ensures forall s: Status :: r == Some(s) <==> StatusName(s) == text
  {
    if text == "Published" then Some(Published)
    else if text == "Inactive" then Some(Inactive)
    else if text == "Draft" then Some(Draft)
    else None
  }

  /** Reads a category back from its record string; other strings are no category. */
  function ParseCategory(text: string): (r: Option<Category>)
    ensures forall c: Category :: r == Some(c) <==> CategoryName(c) == text
  {
    if text == "Electronics" then Some(Electronics)
    else if text == "Furniture" then Some(Furniture)
    else if text == "Clothing" then Some(Clothing)
    else if text == "Books" then Some(Books)
    else if text == "Toys" then Some(Toys)
    else if text == "Beauty" then Some(Beauty)
    else if text == "Sports" then Some(Sports)
    else if text == "Others" then Some(Others)
    else None
  }

  /** The enumerations list every value exactly once. */
  lemma EnumerationsComplete()
    ensures |AllCategories| == 8 && |AllStatuses| == 3
    ensures forall c: Category :: c in AllCategories
    ensures forall s: Status :: s in AllStatuses
    ensures forall i, j :: 0 <= i < j < |AllCategories| ==> CategoryName(AllCategories[i]) != CategoryName(AllCategories[j])
    ensures forall i, j :: 0 <= i < j < |AllStatuses| ==> StatusName(AllStatuses[i]) != StatusName(AllStatuses[j])
  {
    forall c: Category ensures c in AllCategories {
      match c
      case Electronics => assert AllCategories[0] == c;
      case Furniture => assert AllCategories[1] == c;
      case Clothing => assert AllCategories[2] == c;
      case Books => assert AllCategories[3] == c;
      case Toys => assert AllCategories[4] == c;
      case Beauty => assert AllCategories[5] == c;
      case Sports => assert AllCategories[6] == c;
      case Others => assert AllCategories[7] == c;
    }
    forall s: Status ensures s in AllStatuses {
      match s
      case Published => assert AllStatuses[0] == s;
      case Inactive => assert AllStatuses[1] == s;
      case Draft => assert AllStatuses[2] == s;
    }
  }

  datatype Glyph = CheckGlyph | InboxGlyph | XGlyph

  /** What the status cell draws: a colour class and a glyph. */
  datatype Badge = Badge(colorClass: string, glyph: Glyph)

  const Green := "text-green-600 bg-green-100"
  const Red := "text-red-600 bg-red-100"
  const Gray200 := "text-gray-600 bg-gray-200"

  /**
   * The status cell's switch on the record's status string: Published is
   * green with a check, Inactive red with a cross, Draft and every other
   * string gray with an inbox.
   */
  function StatusCell(status: string): (b: Badge)
    ensures b.glyph == CheckGlyph <==> status == StatusName(Published)
    ensures b.glyph == XGlyph <==> status == StatusName(Inactive)
    ensures b.glyph == InboxGlyph <==> ParseStatus(status) !in {Some(Published), Some(Inactive)}
    ensures b.colorClass == (match b.glyph case CheckGlyph => Green case XGlyph => Red case InboxGlyph => Gray200)
  {
    if status == "Published" then Badge(Green, CheckGlyph)
    else if status == "Draft" then Badge(Gray200, InboxGlyph)
    else if status == "Inactive" then Badge(Red, XGlyph)
    else Badge(Gray200, InboxGlyph)
  }

  /** A string that is no status renders exactly like Draft. */
  lemma UnknownStatusLooksLikeDraft(status: string)
    requires ParseStatus(status).None?
    ensures StatusCell(status) == StatusCell(StatusName(Draft))
  {
  }

  /** Distinct statuses render as distinct badges. */
  lemma StatusCellInjective(s: Status, t: Status)
    requires StatusCell(StatusName(s)) == StatusCell(StatusName(t))
    ensures s == t
  {
  }

  /** A column of the product table: its accessor key (or id) and its filter function. */
  datatype Column = Column(key: string, filterFn: Option<string>, sortable: bool)

  const MultiSelect := "multiSelect"

  const TableColumns: seq<Column> := [
    Column("name", None, true),
    Column("sku", None, true),
    Column("createdAt", None, true),
    Column("price", None, true),
    Column("category", Some(MultiSelect), true),
    Column("status", Some(MultiSelect), true),
    Column("quantityInStock", None, true),
    Column("supplier", None, true),
    Column("actions", None, false)
  ]

  /** The keys of the table columns whose filter is `multiSelect`, in column order. */
  function MultiSelectKeys(cols: seq<Column>): (keys: seq<string>)
    ensures forall k :: k in keys <==> exists i :: 0 <= i < |cols| && cols[i].key == k && cols[i].filterFn == Some(MultiSelect)
  {
    if cols == [] then []
    else
      var rest := MultiSelectKeys(cols[1..]);
      assert forall i :: 1 <= i < |cols| ==> cols[i] == cols[1..][i - 1];
      if cols[0].filterFn == Some(MultiSelect) then [cols[0].key] + rest else rest
  }

  /** Only the category and status columns filter with `multiSelect`; every data column sorts. */
  lemma MultiSelectColumnsAreCategoryAndStatus()
    ensures MultiSelectKeys(TableColumns) == ["category", "status"]
    ensures forall i :: 0 <= i < |TableColumns| ==> (TableColumns[i].sortable <==> TableColumns[i].key != "actions")
  {
    var c := TableColumns;
    assert MultiSelectKeys(c[9..]) == [];
    assert MultiSelectKeys(c[8..]) == [];
    assert MultiSelectKeys(c[7..]) == [];
    assert MultiSelectKeys(c[6..]) == [];
    assert MultiSelectKeys(c[5..]) == ["status"];
    assert MultiSelectKeys(c[4..]) == ["category", "status"];
    assert MultiSelectKeys(c[3..]) == ["category", "status"];
    assert MultiSelectKeys(c[2..]) == ["category", "status"];
    assert MultiSelectKeys(c[1..]) == ["category", "status"];
  }
}

=== FILE: decimal.dfy ===
/**
 * Decimal rendering and parsing of natural numbers: the `n.toString()` and
 * unary `+text` conversions the page-size selector and the filter summary use.
 */
module Decimal {
  import opened Wrappers

  predicate IsDigit(c: char) {
    '0' <= c <= '9'
  }

  predicate AllDigits(s: string) {
    forall i :: 0 <= i < |s| ==> IsDigit(s[i])
  }

  function DigitChar(d: nat): (c: char)
    requires d < 10
    ensures IsDigit(c)
    ensures c as int - '0' as int == d
  {
    ('0' as int + d) as char
  }

  function DigitValue(c: char): (d: nat)
    requires IsDigit(c)
    ensures d < 10
    ensures DigitChar(d) == c
  {
    c as int - '0' as int
  }

  /** `n.toString()` for a non-negative integer: its shortest decimal spelling. */
  function NatToString(n: nat): (s: string)
    ensures |s| >= 1
    ensures AllDigits(s)
    ensures |s| > 1 ==> s[0] != '0'
  {
    if n < 10 then [DigitChar(n)] else NatToString(n / 10) + [DigitChar(n % 10)]
  }

  /** The value of a string of decimal digits, most significant first. */
  function DigitsValue(s: string): nat
    requires AllDigits(s)
  {
    if s == [] then 0 else DigitsValue(s[..|s| - 1]) * 10 + DigitValue(s[|s| - 1])
  }

  /**
   * `+text` restricted to what the model needs: a non-empty digit string
   * converts to its value; anything else is reported as `None`.
   */
  function ParseNat(s: string): (r: Option<nat>)
    ensures r.Some? <==> |s| >= 1 && AllDigits(s)
  {
    if |s| >= 1 && AllDigits(s) then Some(DigitsValue(s)) else None
  }

  /** Reading back a rendered number gives the number. */
  lemma {:induction false} ParseNatToString(n: nat)
    ensures ParseNat(NatToString(n)) == Some(n)
  {
    DigitsOfNatToString(n);
  }

  lemma {:induction false} DigitsOfNatToString(n: nat)
    ensures DigitsValue(NatToString(n)) == n
  {
    var s := NatToString(n);
    if n < 10 {
      assert s[..|s| - 1] == [];
    } else {
      var prefix := NatToString(n / 10);
      assert s[..|s| - 1] == prefix;
      assert s[|s| - 1] == DigitChar(n % 10);
      DigitsOfNatToString(n / 10);
    }
  }

  /** Distinct numbers render as distinct strings. */
  lemma NatToStringInjective(m: nat, n: nat)
    requires NatToString(m) == NatToString(n)
    ensures m == n
  {
    ParseNatToString(m);
    ParseNatToString(n);
  }
}

=== FILE: delete_dialog.dfy ===
/**
 * The delete confirmation dialog: its open state mirrors the store's flag,
 * Cancel drops the selection, and confirming deletes the selected product.
 */
module DeleteDialog {
  import opened Wrappers
  import opened Columns
  import opened ProductStore
  import ProductDropDown

  /**
   * `deleteProductFx`: with nothing selected the store is not called
   * (`None`); otherwise the selected product's id is deleted.
   */
  function DeleteProductFx(s: State): (r: Option<Reply>)
    ensures r.None? <==> s.selectedProduct.None?
    ensures r.Some? ==> r.value == DeleteProduct(s, s.selectedProduct.value.id)
  {
    match s.selectedProduct
    case None => None
    case Some(p) => Some(DeleteProduct(s, p.id))
  }

  /**
   * The Delete button: `deleteProductFx` runs and settles, and the button, a
   * dialog action, then closes the dialog, whose `onOpenChange(false)` writes
   * the store's flag on every path.
   */
  function Confirm(s: State): (r: State)
    ensures !r.openDialog
    ensures s.selectedProduct.None? ==> r == s.(openDialog := false)
    ensures s.selectedProduct.Some? ==>
              && (forall p :: p in r.allProducts <==> p in s.allProducts && p.id != s.selectedProduct.value.id)
              && r.selectedProduct.None? && !r.isLoading && r.openProductDialog == s.openProductDialog
  {
    var settled := match DeleteProductFx(s)
      case None => s
      case Some(reply) => reply.state;
    OnOpenChange(settled, false)
  }

  /** Cancel: the selection is dropped and nothing else changes. */
  function Cancel(s: State): (r: State)
    ensures r.selectedProduct.None?
    ensures r.(selectedProduct := s.selectedProduct) == s
  {
    SetSelectedProduct(s, None)
  }

  /** `onOpenChange`: the dialog's new open state is copied into the store verbatim. */
  function OnOpenChange(s: State, open: bool): (r: State)
    ensures r.openDialog == open
    ensures r.(openDialog := s.openDialog) == s
  {
    SetOpenDialog(s, open)
  }

  /**
   * Choosing Delete on a row and confirming removes that row (and any other
   * record with its id), keeps every other record, and closes the dialog.
   */
  lemma DeleteRowFlow(s: State, row: Product, freshId: string, now: int)
    ensures var shown := ProductDropDown.HandleClickedItem(s, ProductDropDown.DeleteLabel, row, freshId, now);
            && shown.openDialog && shown.allProducts == s.allProducts
            && var done := Confirm(shown);
               && (forall p :: p in done.allProducts <==> p in s.allProducts && p.id != row.id)
               && !done.openDialog && done.selectedProduct.None?
  {
  }

  /**
   * Choosing Delete on a row and pressing Cancel: the button's handler drops
   * the selection and the closing dialog writes `false` into the store's flag,
   * leaving the catalogue as it was.
   */
  lemma CancelRowFlow(s: State, row: Product, freshId: string, now: int)
    ensures var shown := ProductDropDown.HandleClickedItem(s, ProductDropDown.DeleteLabel, row, freshId, now);
            var closed := OnOpenChange(Cancel(shown), false);
            && shown.openDialog && shown.selectedProduct == Some(row)
            && closed.allProducts == s.allProducts && closed.selectedProduct.None? && !closed.openDialog
  {
  }
}

=== FILE: filter_area.dfy ===
/**
 * The strip above the table that summarises the active filters: one group
 * per non-empty selection, and a Reset button while any filter is active.
 */
module FilterArea {
  import opened Wrappers
  import Decimal

  datatype Filters = Filters(statuses: seq<string>, categories: seq<string>)

  /** `resetFilters`: both selections emptied. */
  function ResetFilters(f: Filters): (r: Filters)
    ensures |r.statuses| == 0 && |r.categories| == 0
  {
    Filters([], [])
  }

  const SelectedSuffix := " Selected"

  /** The badge that stands for a long selection. */
  function CountLabel(n: nat): string {
    Decimal.NatToString(n) + SelectedSuffix
  }

  /** The number a count badge shows can be read back from its text. */
  lemma CountLabelReadsBack(n: nat)
    ensures var t := CountLabel(n);
            |t| > |SelectedSuffix| && t[|t| - |SelectedSuffix|..] == SelectedSuffix
            && Decimal.ParseNat(t[..|t| - |SelectedSuffix|]) == Some(n)
  {
    var t := CountLabel(n);
    assert t[..|t| - |SelectedSuffix|] == Decimal.NatToString(n);
    Decimal.ParseNatToString(n);
  }

  /**
   * The badges of one group: each selected value in order while fewer than
   * three are selected, otherwise the single count badge.
   */
  function Badges(sel: seq<string>): (r: seq<string>)
    ensures |r| <= 2
    ensures r == [] <==> sel == []
    ensures |sel| < 3 ==> r == sel
    ensures |sel| >= 3 ==> r == [CountLabel(|sel|)]
  {
    if |sel| < 3 then sel else [CountLabel(|sel|)]
  }

  /** A group of the strip; its badges are only meaningful when it is shown. */
  datatype Group = Group(shown: bool, badges: seq<string>)

  datatype View = View(statusGroup: Group, categoryGroup: Group, resetShown: bool)

  function GroupOf(sel: seq<string>): Group {
    Group(|sel| > 0, Badges(sel))
  }

  /** What the strip shows for the current selections. */
  function Render(f: Filters): (v: View)
    ensures v.statusGroup.shown <==> f.statuses != []
    ensures v.categoryGroup.shown <==> f.categories != []
    ensures v.resetShown <==> v.statusGroup.shown || v.categoryGroup.shown
    ensures v.statusGroup.shown ==> v.statusGroup.badges != []
    ensures v.categoryGroup.shown ==> v.categoryGroup.badges != []
  {
    View(GroupOf(f.statuses), GroupOf(f.categories), |f.statuses| > 0 || |f.categories| > 0)
  }

  /** After Reset the strip is empty: no group and no Reset button. */
  lemma ResetHidesEverything(f: Filters)
    ensures var v := Render(ResetFilters(f));
            !v.statusGroup.shown && !v.categoryGroup.shown && !v.resetShown
  {
  }

  /** The number of selected values can always be recovered from a shown group's badges. */
  lemma BadgesDetermineCount(sel: seq<string>)
    requires |sel| > 0
    ensures var b := Badges(sel);
            if |sel| < 3 then |b| == |sel|
            else |b| == 1 && Decimal.ParseNat(b[0][..|b[0]| - |SelectedSuffix|]) == Some(|sel|)
  {
    if |sel| >= 3 {
      CountLabelReadsBack(|sel|);
    }
  }
}

=== FILE: icon_selector.dfy ===
/**
 * The icon picker of the product dialog: the list of selectable icons, the
 * lookup of an icon by its component name, and the two ways an entry becomes
 * the selected one (by name, and by clicking it).
 *
 * A React node is modelled by what the picker inspects of it: whether it is an
 * element, and if so whether its type is a function component with a
 * `displayName` (empty when unset) and a `name`; whether it is null or
 * undefined, where reading its `type` throws; or some other node (text, a
 * number, a boolean), whose `type` is undefined.
 *
 * A component element carries `ref`, the identity of the element object. The
 * picker compares nodes with `===`, which on elements is object identity; in
 * the model two nodes are equal only when they share `ref`, so two separately
 * created elements of the same component are different nodes.
 */
module IconSelector {
  import opened Wrappers

  datatype IconNode =
    | Component(ref: nat, displayName: string, name: string)  // element whose type is a function component
    | Host(tag: string)                                       // element whose type is not a function
    | Nullish                                                 // null or undefined
    | OtherNode                                               // text, number or boolean

  /** One entry of the picker's icon list. */
  datatype SingleIcon = SingleIcon(id: int, icon: IconNode, isSelected: bool)

  /**
   * Why `convertStringToIcon` throws: no text, no icon of that name, or a
   * TypeError from reading `type` on a null or undefined entry.
   */
  datatype IconError = MissingIconText | IconNotFound(text: string) | NullishEntry

  /** `isValidElement(node)` */
  predicate IsValidElement(n: IconNode) {
    n.Component? || n.Host?
  }

  /** The lookup key of `convertStringToIcon`: the function component's own `name`. */
  predicate NamedAs(n: IconNode, text: string) {
    n.Component? && n.name == text
  }

  /** `convertIconToString`: `displayName || name` of a function component, otherwise null. */
  function ConvertIconToString(n: IconNode): (r: Option<string>)
    ensures r.Some? <==> n.Component?
    ensures n.Component? && n.displayName != "" ==> r == Some(n.displayName)
    ensures n.Component? && n.displayName == "" ==> r == Some(n.name)
  {
    match n
    case Component(_, displayName, name) => Some(if displayName != "" then displayName else name)
    case _ => None
  }

  /** Where the lookup loop stops on an entry: it throws on it or returns it. */
  predicate Stops(n: IconNode, text: string) {
    n.Nullish? || NamedAs(n, text)
  }

  /** The position of the first entry the lookup stops on, or the length when there is none. */
  function FirstStop(icons: seq<SingleIcon>, text: string): (k: nat)
    ensures k <= |icons|
    ensures forall j :: 0 <= j < k ==> !Stops(icons[j].icon, text)
    ensures k < |icons| ==> Stops(icons[k].icon, text)
  {
    if icons == [] then 0
    else if Stops(icons[0].icon, text) then 0
    else
      assert forall i :: 1 <= i < |icons| ==> icons[i] == icons[1..][i - 1];
      1 + FirstStop(icons[1..], text)
  }

  /** What the lookup loop yields when it stops at position `k` (the length: it ran off the end). */
  function StopResult(icons: seq<SingleIcon>, text: string, k: nat): Result<IconNode, IconError>
    requires k <= |icons|
  {
    if k == |icons| then Failure(IconNotFound(text))
    else if icons[k].icon.Nullish? then Failure(NullishEntry)
    else Success(icons[k].icon)
  }

  /**
   * The loop of `convertStringToIcon`: the first entry that is null or
   * undefined throws, the first entry whose component name is `text` is
   * returned, whichever comes first; running off the end is "not found".
   */
  function FindByName(icons: seq<SingleIcon>, text: string): (r: Result<IconNode, IconError>)
    ensures r == StopResult(icons, text, FirstStop(icons, text))
    ensures r.Success? ==> NamedAs(r.value, text)
  {
    if icons == [] then Failure(IconNotFound(text))
    else if icons[0].icon.Nullish? then Failure(NullishEntry)
    else if NamedAs(icons[0].icon, text) then Success(icons[0].icon)
    else
      assert forall i :: 1 <= i < |icons| ==> icons[i] == icons[1..][i - 1];
      FindByName(icons[1..], text)
  }

  /**
   * `convertStringToIcon`: throws on empty text; otherwise the lookup loop
   * decides, so a returned node is a component named `text` with no null
   * entry and no namesake before it.
   */
  function ConvertStringToIcon(text: string, icons: seq<SingleIcon>): (r: Result<IconNode, IconError>)
    ensures text == "" <==> r == Failure(MissingIconText)
    ensures text != "" ==> r == StopResult(icons, text, FirstStop(icons, text))
    ensures r.Success? ==> NamedAs(r.value, text)
  {
    if text == "" then Failure(MissingIconText)
    else FindByName(icons, text)
  }

  /** A null entry reached before any match makes the lookup throw, whatever follows it. */
  lemma NullishEntryStopsLookup(icons: seq<SingleIcon>, k: nat, text: string)
    requires text != "" && k < |icons| && icons[k].icon.Nullish?
    requires forall j :: 0 <= j < k ==> !NamedAs(icons[j].icon, text)
    ensures ConvertStringToIcon(text, icons) == Failure(NullishEntry)
  {
    var m := FirstStop(icons, text);
    assert Stops(icons[k].icon, text);
    assert m <= k;
    if m < k {
      assert !NamedAs(icons[m].icon, text);
    }
  }

  /** Every entry is selected exactly when its node is `node`; ids and nodes are kept. */
  function MarkNode(icons: seq<SingleIcon>, node: IconNode): (r: seq<SingleIcon>)
    ensures |r| == |icons|
    ensures forall i :: 0 <= i < |r| ==>
              r[i].id == icons[i].id && r[i].icon == icons[i].icon && (r[i].isSelected <==> icons[i].icon == node)
  {
    if icons == [] then []
    else [icons[0].(isSelected := icons[0].icon == node)] + MarkNode(icons[1..], node)
  }

  /** The new icon list and the node handed to `onUpdateIcon`, if any. */
  datatype Triggered = Triggered(icons: seq<SingleIcon>, notified: Option<IconNode>)

  /**
   * `triggerIconSelection`: with a known name, select exactly the entries holding
   * the found node and notify it; on any lookup error (caught and logged) change
   * nothing and notify nobody.
   */
  function TriggerIconSelection(icons: seq<SingleIcon>, text: string): (r: Triggered)
    ensures ConvertStringToIcon(text, icons).Failure? ==> r == Triggered(icons, None)
    ensures ConvertStringToIcon(text, icons).Success? ==>
              var node := ConvertStringToIcon(text, icons).value;
              && r.notified == Some(node)
              && |r.icons| == |icons|
              && forall i :: 0 <= i < |icons| ==>
                   r.icons[i].id == icons[i].id && r.icons[i].icon == icons[i].icon
                   && (r.icons[i].isSelected <==> icons[i].icon == node)
  {
    match ConvertStringToIcon(text, icons)
    case Success(node) => Triggered(MarkNode(icons, node), Some(node))
    case Failure(_) => Triggered(icons, None)
  }

  /** Every entry is selected exactly when its id is `id`; ids and nodes are kept. */
  function MarkId(icons: seq<SingleIcon>, id: int): (r: seq<SingleIcon>)
    ensures |r| == |icons|
    ensures forall i :: 0 <= i < |r| ==>
              r[i].id == icons[i].id && r[i].icon == icons[i].icon && (r[i].isSelected <==> icons[i].id == id)
  {
    if icons == [] then []
    else [icons[0].(isSelected := icons[0].id == id)] + MarkId(icons[1..], id)
  }

  /** The nodes of the entries whose id is `id`, in list order. */
  function NodesWithId(icons: seq<SingleIcon>, id: int): (r: seq<IconNode>)
    ensures |r| <= |icons|
    ensures forall n :: n in r ==> exists i :: 0 <= i < |icons| && icons[i].id == id && icons[i].icon == n
    ensures r == [] <==> forall i :: 0 <= i < |icons| ==> icons[i].id != id
  {
    if icons == [] then []
    else
      var rest := NodesWithId(icons[1..], id);
      assert forall i :: 1 <= i < |icons| ==> icons[i] == icons[1..][i - 1];
      if icons[0].id == id then [icons[0].icon] + rest else rest
  }

  /**
   * The outcome of a click: the new icon list, every node handed to
   * `onUpdateIcon` (once per matching entry) and the dialog's open state.
   */
  datatype Picked = Picked(icons: seq<SingleIcon>, notified: seq<IconNode>, dialogOpen: bool)

  /**
   * `updateSelection`: the clicked entry's id is selected and every other
   * entry deselected; each matching entry notifies its node and sets the
   * dialog to the negation of the open state captured at the click.
   */
  function UpdateSelection(icons: seq<SingleIcon>, clicked: SingleIcon, dialogOpen: bool): (r: Picked)
    ensures |r.icons| == |icons|
    ensures forall i :: 0 <= i < |icons| ==>
              r.icons[i].id == icons[i].id && r.icons[i].icon == icons[i].icon
              && (r.icons[i].isSelected <==> icons[i].id == clicked.id)
    ensures r.notified == [] <==> forall i :: 0 <= i < |icons| ==> icons[i].id != clicked.id
    ensures r.dialogOpen == (if r.notified == [] then dialogOpen else !dialogOpen)
  {
    var notified := NodesWithId(icons, clicked.id);
    Picked(MarkId(icons, clicked.id), notified, if notified == [] then dialogOpen else !dialogOpen)
  }

  predicate UniqueIds(icons: seq<SingleIcon>) {
    forall i, j :: 0 <= i < j < |icons| ==> icons[i].id != icons[j].id
  }

  /** The node shown on the picker's button: the first selected entry's. */
  function SelectedIcon(icons: seq<SingleIcon>): (r: Option<IconNode>)
    ensures r.Some? <==> exists i :: 0 <= i < |icons| && icons[i].isSelected
    ensures r.Some? ==> exists i :: 0 <= i < |icons| && icons[i].isSelected && icons[i].icon == r.value
                           && forall j :: 0 <= j < i ==> !icons[j].isSelected
  {
    if icons == [] then None
    else if icons[0].isSelected then Some(icons[0].icon)
    else
      var r := SelectedIcon(icons[1..]);
      assert forall i :: 1 <= i < |icons| ==> icons[i] == icons[1..][i - 1];
      r
  }

  /**
   * With unique ids, clicking an entry of the list leaves exactly that entry
   * selected, shows its node on the button and notifies it exactly once.
   */
  lemma ClickSelectsExactlyOne(icons: seq<SingleIcon>, k: nat, dialogOpen: bool)
    requires UniqueIds(icons)
    requires k < |icons|
    ensures var r := UpdateSelection(icons, icons[k], dialogOpen);
            && (forall i :: 0 <= i < |icons| ==> (r.icons[i].isSelected <==> i == k))
            && SelectedIcon(r.icons) == Some(icons[k].icon)
            && r.notified == [icons[k].icon]
            && r.dialogOpen == !dialogOpen
  {
    var r := UpdateSelection(icons, icons[k], dialogOpen);
    assert r.icons[k].isSelected;
    NodesWithUniqueId(icons, k);
  }

  /**
   * No component element object appears twice in the list (other nodes carry
   * no identity in the model and are never the node a lookup finds).
   */
  predicate DistinctNodes(icons: seq<SingleIcon>) {
    forall i, j :: 0 <= i < j < |icons| && icons[i].icon.Component? ==> icons[i].icon != icons[j].icon
  }

  /**
   * When no component element object appears twice in the list, a successful
   * selection by name leaves exactly the found entry selected and shows its
   * node on the button.
   */
  lemma TriggerSelectsExactlyOne(icons: seq<SingleIcon>, text: string)
    requires DistinctNodes(icons)
    ensures var r := TriggerIconSelection(icons, text);
            r.notified.Some? ==>
              exists k :: 0 <= k < |icons| && icons[k].icon == r.notified.value
                && (forall i :: 0 <= i < |icons| ==> (r.icons[i].isSelected <==> i == k))
                && SelectedIcon(r.icons) == r.notified
  {
    var c := ConvertStringToIcon(text, icons);
    if c.Success? {
      var k := FirstStop(icons, text);
      var marked := MarkNode(icons, c.value);
      MarkDistinctNode(icons, k);
      OnlySelected(marked, k);
      assert marked[k].icon == icons[k].icon;
      assert TriggerIconSelection(icons, text) == Triggered(marked, Some(c.value));
    }
  }

  /** With distinct component nodes, marking an entry's component selects that entry alone. */
  lemma MarkDistinctNode(icons: seq<SingleIcon>, k: nat)
    requires DistinctNodes(icons) && k < |icons| && icons[k].icon.Component?
    ensures forall i :: 0 <= i < |icons| ==> (MarkNode(icons, icons[k].icon)[i].isSelected <==> i == k)
  {
    var r := MarkNode(icons, icons[k].icon);
    forall i | 0 <= i < |icons| ensures r[i].isSelected <==> i == k {
      if i < k {
        assert icons[i].icon != icons[k].icon;
      } else if i > k {
        assert icons[k].icon != icons[i].icon;
      }
    }
  }

  /** When exactly one entry is selected, the button shows its node. */
  lemma OnlySelected(icons: seq<SingleIcon>, k: nat)
    requires k < |icons|
    requires forall i :: 0 <= i < |icons| ==> (icons[i].isSelected <==> i == k)
    ensures SelectedIcon(icons) == Some(icons[k].icon)
  {
    assert icons[k].isSelected;
    var m :| 0 <= m < |icons| && icons[m].isSelected && icons[m].icon == SelectedIcon(icons).value
             && forall j :: 0 <= j < m ==> !icons[j].isSelected;
    assert m == k;
  }

  lemma {:induction false} NodesWithUniqueId(icons: seq<SingleIcon>, k: nat)
    requires UniqueIds(icons)
    requires k < |icons|
    ensures NodesWithId(icons, icons[k].id) == [icons[k].icon]
  {
    var rest := icons[1..];
    assert forall i :: 1 <= i < |icons| ==> icons[i] == rest[i - 1];
    if k == 0 {
      assert forall i :: 0 <= i < |rest| ==> rest[i].id != icons[0].id;
      assert NodesWithId(rest, icons[0].id) == [];
    } else {
      assert UniqueIds(rest);
      NodesWithUniqueId(rest, k - 1);
    }
  }

  /** `isAllIconValid`: every entry holds a React element (ids and flags are typed). */
  function IsAllIconValid(icons: seq<SingleIcon>): (r: bool)
    ensures r <==> forall i :: 0 <= i < |icons| ==> IsValidElement(icons[i].icon)
  {
    if icons == [] then true
    else
      assert forall i :: 1 <= i < |icons| ==> icons[i] == icons[1..][i - 1];
      IsValidElement(icons[0].icon) && IsAllIconValid(icons[1..])
  }

  /**
   * For a component without a display name, with no null entry and no
   * namesake before it, the name `convertIconToString` yields leads
   * `convertStringToIcon` back to the same node.
   */
  lemma NameRoundTrip(icons: seq<SingleIcon>, k: nat)
    requires k < |icons|
    requires icons[k].icon.Component? && icons[k].icon.displayName == "" && icons[k].icon.name != ""
    requires forall j :: 0 <= j < k ==> !Stops(icons[j].icon, icons[k].icon.name)
    ensures ConvertIconToString(icons[k].icon).Some?
    ensures ConvertStringToIcon(ConvertIconToString(icons[k].icon).value, icons) == Success(icons[k].icon)
  {
    var text := icons[k].icon.name;
    var m := FirstStop(icons, text);
    assert Stops(icons[k].icon, text);
    assert m <= k;
  }

  /**
   * The two conversions disagree on components whose display name differs
   * from their name: in no list does the string of such a component find it.
   */
  lemma DisplayNameBreaksRoundTrip(n: IconNode, icons: seq<SingleIcon>)
    requires n.Component? && n.displayName != "" && n.displayName != n.name
    ensures ConvertIconToString(n) == Some(n.displayName)
    ensures ConvertStringToIcon(ConvertIconToString(n).value, icons) != Success(n)
  {
  }
}

=== FILE: login_page.dfy ===
/** The login form's submit handler: a credential lookup against the built-in users. */
module LoginPage {
  import opened Wrappers
  import opened AuthStore

  datatype MockUser = MockUser(email: string, password: string, name: string, token: string)

  const MockUsers: seq<MockUser> := [MockUser("test@example.com", "password123", "Test User", "fake-jwt-token")]

  /** Exact match on both the e-mail and the password. */
  predicate Matches(u: MockUser, email: string, password: string) {
    u.email == email && u.password == password
  }

  /** `mockUsers.find(...)`: the first user whose credentials match. */
  function FindUser(users: seq<MockUser>, email: string, password: string): (r: Option<MockUser>)
    ensures r.Some? <==> exists i :: 0 <= i < |users| && Matches(users[i], email, password)
    ensures r.Some? ==> exists i :: 0 <= i < |users| && users[i] == r.value && Matches(r.value, email, password)
                           && forall j :: 0 <= j < i ==> !Matches(users[j], email, password)
  {
    if users == [] then None
    else if Matches(users[0], email, password) then Some(users[0])
    else
      var r := FindUser(users[1..], email, password);
      assert forall i :: 1 <= i < |users| ==> users[i] == users[1..][i - 1];
      r
  }

  const LoggedInMessage := "Logged in successfully!"
  const InvalidCredential := "Invalid credential"

  datatype LoginResult = LoggedIn(state: AuthState, message: string) | Rejected(error: string)

  /**
   * On a match, log in as user "1" with the matched user's name and token;
   * otherwise reject with "Invalid credential" and leave the session alone.
   */
  function OnSubmit(s: AuthState, email: string, password: string): (r: LoginResult)
    ensures r.LoggedIn? <==> exists i :: 0 <= i < |MockUsers| && Matches(MockUsers[i], email, password)
    ensures r.LoggedIn? ==>
              var u := FindUser(MockUsers, email, password).value;
              r.state == Login(s, User("1", u.name), u.token) && r.message == LoggedInMessage
    ensures r.Rejected? ==> r.error == InvalidCredential
  {
    match FindUser(MockUsers, email, password)
    case Some(u) => LoggedIn(Login(s, User("1", u.name), u.token), LoggedInMessage)
    case None => Rejected(InvalidCredential)
  }

  /** Only the built-in test credentials log in, and they always log in as "Test User". */
  lemma OnlyTestUserLogsIn(s: AuthState, email: string, password: string)
    ensures OnSubmit(s, email, password).LoggedIn? <==> email == "test@example.com" && password == "password123"
    ensures OnSubmit(s, email, password).LoggedIn? ==>
              OnSubmit(s, email, password).state == AuthState(Some(User("1", "Test User")), Some("fake-jwt-token"))
  {
  }
}

=== FILE: pagination_selection.dfy ===
/**
 * The rows-per-page selector: its fixed options, the value it displays and
 * the update it applies to the table's pagination state.
 */
module PaginationSelection {
  import opened Wrappers
  import Decimal

  datatype Pagination = Pagination(pageIndex: nat, pageSize: nat)

  const PageSizes: seq<nat> := [5, 10, 15, 20, 30, 50]

  /** The option values of the selector: each size rendered with `toString()`. */
  function OptionValues(): (vs: seq<string>)
    ensures |vs| == |PageSizes|
    ensures forall i :: 0 <= i < |vs| ==> vs[i] == Decimal.NatToString(PageSizes[i])
  {
    seq(|PageSizes|, i requires 0 <= i < |PageSizes| => Decimal.NatToString(PageSizes[i]))
  }

  /** The selector shows the current page size as text. */
  function DisplayedValue(p: Pagination): (v: string)
    ensures Decimal.ParseNat(v) == Some(p.pageSize)
  {
    Decimal.ParseNatToString(p.pageSize);
    Decimal.NatToString(p.pageSize)
  }

  /**
   * `onValueChange`: the chosen option's text is converted back to a number
   * and becomes the page size; every other field, the page index included,
   * is copied unchanged.
   */
  function OnValueChange(p: Pagination, value: string): (r: Pagination)
    requires value in OptionValues()
    ensures r.pageSize in PageSizes && Decimal.NatToString(r.pageSize) == value
    ensures r.pageIndex == p.pageIndex
  {
    var i :| 0 <= i < |PageSizes| && OptionValues()[i] == value;
    Decimal.ParseNatToString(PageSizes[i]);
    p.(pageSize := Decimal.ParseNat(value).value)
  }

  /**
   * Choosing the option for a size sets exactly that size, keeps the page
   * index, and makes the selector display that option.
   */
  lemma SelectSize(p: Pagination, k: nat)
    requires k < |PageSizes|
    ensures OptionValues()[k] in OptionValues()
    ensures var r := OnValueChange(p, OptionValues()[k]);
            r == Pagination(p.pageIndex, PageSizes[k]) && DisplayedValue(r) == OptionValues()[k]
  {
    var r := OnValueChange(p, OptionValues()[k]);
    Decimal.NatToStringInjective(r.pageSize, PageSizes[k]);
  }

  /** The options are distinct and strictly increasing. */
  lemma PageSizesIncreasing()
    ensures forall i, j :: 0 <= i < j < |PageSizes| ==> PageSizes[i] < PageSizes[j]
  {
  }
}

=== FILE: product_dialog.dfy ===
/**
 * The create/edit product dialog: the field rules of the product form, the
 * prefill that runs when the selection changes, and the record the submit
 * handler builds and hands to the store.
 */
module ProductDialog {
  import opened Wrappers
  import opened IconSelector
  import opened Columns
  import ProductStore

  /** A numeric form input as the browser reports it: not a number, or a value. */
  datatype NumberInput = NaN | Num(value: real)

  /**
   * The price input. The field is registered with `valueAsNumber`, so the
   * schema always receives a number: not a number (an empty or non-numeric
   * box), or a value, already rounded to two decimals and expressed in cents.
   */
  datatype PriceInput = PriceNaN | PriceCents(cents: int)

  datatype FormValues = FormValues(
    productName: string,
    sku: string,
    supplier: string,
    quantity: NumberInput,
    price: PriceInput)

  /** One validation issue, in the order the schema reports them. */
  datatype FieldError =
    | NameRequired | NameTooLong
    | SkuRequired | SkuNotAlphanumeric
    | SupplierRequired | SupplierTooLong
    | QuantityNotNumber | QuantityNotInteger | QuantityNegative
    | PriceInvalid | PriceNegative

  /** The schema's message for each issue. */
  function Message(e: FieldError): string {
    match e
    case NameRequired => "Product name is required"
    case NameTooLong => "Product name must be 100 characters or less"
    case SkuRequired => "SKU is required"
    case SkuNotAlphanumeric => "SKU must be alphanumeric"
    case SupplierRequired => "Supplier is required"
    case SupplierTooLong => "Supplier name must be 100 characters or less"
    case QuantityNotNumber => "Expected number, received nan"
    case QuantityNotInteger => "Quantity must be an integer"
    case QuantityNegative => "Quantity cannot be negative"
    case PriceInvalid => "Invalid input"
    case PriceNegative => "Price cannot be negative"
  }

  /** No two issues share a message, so an issue's message identifies the issue. */
  lemma MessagesIdentifyErrors(e1: FieldError, e2: FieldError)
    requires Message(e1) == Message(e2)
    ensures e1 == e2
  {
  }

  const MaxTextLength := 100

  // ------------------------------------------------------------ field rules

  /** The name and supplier rule: between 1 and 100 characters. */
  predicate ValidText(s: string) {
    1 <= |s| <= MaxTextLength
  }

  /** A character of the SKU class `[a-zA-Z0-9-_]`. */
  predicate SkuChar(c: char) {
    ('a' <= c <= 'z') || ('A' <= c <= 'Z') || ('0' <= c <= '9') || c == '-' || c == '_'
  }

  /** The SKU rule: non-empty, and only letters, digits, `-` and `_`. */
  predicate ValidSku(s: string) {
    |s| >= 1 && forall i :: 0 <= i < |s| ==> SkuChar(s[i])
  }

  predicate IsInteger(v: real) {
    v.Floor as real == v
  }

  /** The quantity rule: a number that is an integer and not negative. */
  predicate ValidQuantity(q: NumberInput) {
    q.Num? && IsInteger(q.value) && q.value >= 0.0
  }

  /** The price rule: a non-empty number that is not negative. */
  predicate ValidPrice(p: PriceInput) {
    p.PriceCents? && p.cents >= 0
  }

  predicate ValidForm(f: FormValues) {
    ValidText(f.productName) && ValidSku(f.sku) && ValidText(f.supplier)
    && ValidQuantity(f.quantity) && ValidPrice(f.price)
  }

  // ------------------------------------------------------ per-field checks

  /** A `min(1)` then `max(100)` string check; both run, so both can report. */
  function TextErrors(s: string, required: FieldError, tooLong: FieldError): (es: seq<FieldError>)
    ensures es == [] <==> ValidText(s)
    ensures forall e :: e in es ==> e in {required, tooLong}
  {
    (if |s| < 1 then [required] else []) + (if |s| > MaxTextLength then [tooLong] else [])
  }

  function SkuPatternMatches(s: string): (b: bool)
    ensures b <==> ValidSku(s)
  {
    if s == [] then false
    else if |s| == 1 then SkuChar(s[0])
    else
      assert forall i :: 1 <= i < |s| ==> s[i] == s[1..][i - 1];
      SkuChar(s[0]) && SkuPatternMatches(s[1..])
  }

  /** `min(1)` and the pattern both run: the empty SKU reports both issues. */
  function SkuErrors(s: string): (es: seq<FieldError>)
    ensures es == [] <==> ValidSku(s)
    ensures s == "" ==> es == [SkuRequired, SkuNotAlphanumeric]
  {
    (if |s| < 1 then [SkuRequired] else []) + (if !SkuPatternMatches(s) then [SkuNotAlphanumeric] else [])
  }

  /** A value that is not a number stops the checks; otherwise both the integer and sign checks run. */
  function QuantityErrors(q: NumberInput): (es: seq<FieldError>)
    ensures es == [] <==> ValidQuantity(q)
    ensures q.NaN? ==> es == [QuantityNotNumber]
  {
    match q
    case NaN => [QuantityNotNumber]
    case Num(v) => (if !IsInteger(v) then [QuantityNotInteger] else []) + (if v < 0.0 then [QuantityNegative] else [])
  }

  /**
   * A number that is not a number satisfies neither member of the
   * string-or-number union, so the union itself rejects it and the later steps
   * never run; a value is checked only for its sign.
   */
  function PriceErrors(p: PriceInput): (es: seq<FieldError>)
    ensures es == [] <==> ValidPrice(p)
    ensures p.PriceNaN? ==> es == [PriceInvalid]
    ensures p.PriceCents? ==> (es == [PriceNegative] <==> p.cents < 0)
    ensures |es| <= 1
  {
    match p
    case PriceNaN => [PriceInvalid]
    case PriceCents(c) => if c < 0 then [PriceNegative] else []
  }

  /** The validated payload handed to the submit handler. */
  datatype ProductFields = ProductFields(productName: string, sku: string, supplier: string, quantity: int, price: int)

  /** Every issue the schema reports, field by field in declaration order. */
  function Errors(f: FormValues): (es: seq<FieldError>)
    ensures es == [] <==> ValidForm(f)
  {
    var name := TextErrors(f.productName, NameRequired, NameTooLong);
    var sku := SkuErrors(f.sku);
    var supplier := TextErrors(f.supplier, SupplierRequired, SupplierTooLong);
    var quantity := QuantityErrors(f.quantity);
    var price := PriceErrors(f.price);
    assert |name + sku + supplier + quantity + price| == |name| + |sku| + |supplier| + |quantity| + |price|;
    name + sku + supplier + quantity + price
  }

  /**
   * The form schema: either the validated payload, or every issue found, in
   * field order.
   */
  function Validate(f: FormValues): (r: Result<ProductFields, seq<FieldError>>)
    ensures r.Success? <==> ValidForm(f)
    ensures r.Success? ==>
              && r.value.productName == f.productName && r.value.sku == f.sku && r.value.supplier == f.supplier
              && r.value.quantity as real == f.quantity.value && r.value.price == f.price.cents
    ensures r.Failure? ==> |r.error| >= 1 && r.error == Errors(f)
  {
    var es := Errors(f);
    if es == [] then
      Success(ProductFields(f.productName, f.sku, f.supplier, f.quantity.value.Floor, f.price.cents))
    else
      Failure(es)
  }

  // ----------------------------------------------------- dialog and prefill

  /** The dialog's local state: the form, the status tab, the category and the icon. */
  datatype DialogState = DialogState(form: FormValues, selectedTab: Status, selectedCategory: Category, selectedIcon: IconNode)

  const DefaultForm := FormValues("", "", "", Num(0.0), PriceCents(0))

  /** The form filled from a product record. */
  function FormOf(p: Product): FormValues {
    FormValues(p.name, p.sku, p.supplier, Num(p.quantityInStock as real), PriceCents(p.price))
  }

  /**
   * The effect on a selection change: a selected product fills every field,
   * the tab, the category and the icon from the record; no selection resets the
   * form to its defaults, the tab to Published and the category to
   * Electronics, and keeps whatever icon was chosen before.
   */
  function Prefill(selected: Option<Product>, d: DialogState): (r: DialogState)
    ensures selected.Some? ==>
              && r.form.productName == selected.value.name && r.form.sku == selected.value.sku
              && r.form.supplier == selected.value.supplier
              && r.form.quantity == Num(selected.value.quantityInStock as real)
              && r.form.price == PriceCents(selected.value.price)
              && r.selectedTab == selected.value.status && r.selectedCategory == selected.value.category
              && r.selectedIcon == selected.value.icon
    ensures selected.None? ==>
              && r.form == DefaultForm && r.selectedTab == Published && r.selectedCategory == Electronics
              && r.selectedIcon == d.selectedIcon
  {
    match selected
    case Some(p) => DialogState(FormOf(p), p.status, p.category, p.icon)
    case None => d.(form := DefaultForm, selectedTab := Published, selectedCategory := Electronics)
  }

  /** The defaults fail validation only on the empty text fields. */
  lemma DefaultFormErrors()
    ensures Validate(DefaultForm) == Failure([NameRequired, SkuRequired, SkuNotAlphanumeric, SupplierRequired])
  {
    assert QuantityErrors(DefaultForm.quantity) == [] by {
      assert IsInteger(0.0);
    }
    assert TextErrors("", NameRequired, NameTooLong) == [NameRequired];
    assert TextErrors("", SupplierRequired, SupplierTooLong) == [SupplierRequired];
    assert PriceErrors(DefaultForm.price) == [];
    assert Errors(DefaultForm) == [NameRequired] + [SkuRequired, SkuNotAlphanumeric] + [SupplierRequired] + [] + [];
    assert [NameRequired] + [SkuRequired, SkuNotAlphanumeric] + [SupplierRequired] + [] + []
        == [NameRequired, SkuRequired, SkuNotAlphanumeric, SupplierRequired];
  }

  // ------------------------------------------------------------- submission

  /** A new record: caller-supplied id and timestamp, every other field from the dialog. */
  function BuildCreate(data: ProductFields, d: DialogState, freshId: string, now: int): (p: Product)
    ensures p.id == freshId && p.createdAt == now
    ensures p.name == data.productName && p.sku == data.sku && p.supplier == data.supplier
    ensures p.quantityInStock == data.quantity && p.price == data.price
    ensures p.status == d.selectedTab && p.category == d.selectedCategory && p.icon == d.selectedIcon
  {
    Product(freshId, data.productName, data.supplier, data.sku, d.selectedCategory, d.selectedTab,
            data.quantity, data.price, d.selectedIcon, now)
  }

  /** An edited record: the selected product's id and creation time, every other field from the dialog. */
  function BuildEdit(selected: Product, data: ProductFields, d: DialogState): (p: Product)
    ensures p.id == selected.id && p.createdAt == selected.createdAt
    ensures p == BuildCreate(data, d, selected.id, selected.createdAt)
  {
    Product(selected.id, data.productName, data.supplier, data.sku, d.selectedCategory, d.selectedTab,
            data.quantity, data.price, d.selectedIcon, selected.createdAt)
  }

  /**
   * `handleReset`, the Cancel button's click handler: `reset()` returns the
   * form to the values of the last reset, and the selection is cleared. With
   * a product selected, that change re-runs the effect, which resets the form,
   * the tab and the category; with none, nothing re-runs, and the last reset
   * was the effect's own reset to the defaults, so only the form is back at
   * its defaults and the tab and category stay as they were.
   */
  function HandleReset(s: ProductStore.State, d: DialogState): (r: (ProductStore.State, DialogState))
    ensures r.0.selectedProduct.None? && r.0.allProducts == s.allProducts
    ensures r.0.openProductDialog == s.openProductDialog && r.0.openDialog == s.openDialog
    ensures r.1.form == DefaultForm && r.1.selectedIcon == d.selectedIcon
    ensures s.selectedProduct.Some? ==> r.1.selectedTab == Published && r.1.selectedCategory == Electronics
    ensures s.selectedProduct.None? ==> r.1.selectedTab == d.selectedTab && r.1.selectedCategory == d.selectedCategory
  {
    var s' := ProductStore.SetSelectedProduct(s, None);
    if s.selectedProduct.Some? then (s', Prefill(s'.selectedProduct, d))
    else (s', d.(form := DefaultForm))
  }

  /**
   * A click on the Cancel button, which exists only while the dialog is open:
   * `handleReset` runs, then the button, a dialog close, makes the dialog
   * report `onOpenChange(false)`, which the store takes as its product-dialog
   * flag; that change re-runs the effect with nothing selected.
   */
  function CancelButton(s: ProductStore.State, d: DialogState): (r: (ProductStore.State, DialogState))
    requires s.openProductDialog
    ensures !r.0.openProductDialog && r.0.selectedProduct.None?
    ensures r.0.allProducts == s.allProducts && r.0.isLoading == s.isLoading && r.0.openDialog == s.openDialog
    ensures r.1.form == DefaultForm && r.1.selectedTab == Published && r.1.selectedCategory == Electronics
    ensures r.1.selectedIcon == d.selectedIcon
  {
    var (s', d') := HandleReset(s, d);
    var closed := ProductStore.SetOpenProductDialog(s', false);
    (closed, Prefill(closed.selectedProduct, d'))
  }

  /** The store's reply to the submit handler and the dialog's state once it settles. */
  datatype Outcome = Outcome(reply: ProductStore.Reply, dialog: DialogState)

  /**
   * The submit handler on a validated payload. Without a selection the new
   * record is added and the handler then clicks the Cancel button, which
   * resets and closes the dialog; with one, the edited record replaces it and
   * the store itself closes the dialog and drops the selection, after which
   * the effect resets the form. Either way the dialog ends closed, empty and
   * with nothing selected. The form is only on screen while the dialog is open.
   */
  function OnSubmit(s: ProductStore.State, d: DialogState, data: ProductFields, freshId: string, now: int)
    : (r: Outcome)
    requires s.openProductDialog
    ensures r.reply.success
    ensures s.selectedProduct.None? ==>
              r.reply.state.allProducts == s.allProducts + [BuildCreate(data, d, freshId, now)]
    ensures s.selectedProduct.Some? ==>
              && ProductStore.Ids(r.reply.state.allProducts) == ProductStore.Ids(s.allProducts)
              && forall i :: 0 <= i < |s.allProducts| ==>
                   r.reply.state.allProducts[i] ==
                     (if s.allProducts[i].id == s.selectedProduct.value.id
                      then BuildEdit(s.selectedProduct.value, data, d) else s.allProducts[i])
    ensures !r.reply.state.isLoading && !r.reply.state.openProductDialog && r.reply.state.selectedProduct.None?
    ensures r.reply.state.openDialog == s.openDialog
    ensures r.dialog.form == DefaultForm && r.dialog.selectedTab == Published && r.dialog.selectedCategory == Electronics
    ensures r.dialog.selectedIcon == d.selectedIcon
  {
    match s.selectedProduct
    case None =>
      var added := ProductStore.AddProduct(s, BuildCreate(data, d, freshId, now));
      assert added.state.allProducts == s.allProducts + [BuildCreate(data, d, freshId, now)];
      var (s', d') := CancelButton(added.state, d);
      Outcome(ProductStore.Reply(s', added.success), d')
    case Some(sel) =>
      var updated := ProductStore.UpdateProduct(s, BuildEdit(sel, data, d));
      Outcome(updated, Prefill(updated.state.selectedProduct, d))
  }

  /** What pressing the submit button does: report the issues, or submit the payload. */
  datatype Submission = Rejected(errors: seq<FieldError>) | Submitted(outcome: Outcome)

  function Submit(s: ProductStore.State, d: DialogState, freshId: string, now: int): (r: Submission)
    requires s.openProductDialog
    ensures r.Submitted? <==> ValidForm(d.form)
    ensures r.Rejected? ==> r.errors == Errors(d.form) && |r.errors| >= 1
    ensures r.Submitted? ==> r.outcome == OnSubmit(s, d, Validate(d.form).value, freshId, now)
  {
    match Validate(d.form)
    case Success(data) => Submitted(OnSubmit(s, d, data, freshId, now))
    case Failure(es) => Rejected(es)
  }

  // --------------------------------------------------------------- round trip

  /** A record whose fields satisfy every form rule. */
  predicate ValidProduct(p: Product) {
    ValidText(p.name) && ValidSku(p.sku) && ValidText(p.supplier) && p.quantityInStock >= 0 && p.price >= 0
  }

  /**
   * Opening a valid product for editing and submitting without changes
   * validates and rebuilds exactly that product.
   */
  lemma EditRoundTrip(p: Product, d: DialogState)
    requires ValidProduct(p)
    ensures var d' := Prefill(Some(p), d);
            && Validate(d'.form).Success?
            && BuildEdit(p, Validate(d'.form).value, d') == p
  {
    var f := Prefill(Some(p), d).form;
    assert IsInteger(p.quantityInStock as real);
    assert ValidForm(f);
  }

  /**
   * Editing without changes leaves a uniquely-keyed catalogue that holds the
   * selected product exactly as it was.
   */
  lemma UnchangedEditKeepsCatalogue(s: ProductStore.State, d: DialogState, freshId: string, now: int)
    requires s.selectedProduct.Some? && s.selectedProduct.value in s.allProducts
    requires ProductStore.UniqueIds(s.allProducts)
    requires ValidProduct(s.selectedProduct.value)
    requires s.openProductDialog
    ensures var d' := Prefill(s.selectedProduct, d);
            && Submit(s, d', freshId, now).Submitted?
            && Submit(s, d', freshId, now).outcome.reply.state.allProducts == s.allProducts
  {
    var p := s.selectedProduct.value;
    EditRoundTrip(p, d);
    var k :| 0 <= k < |s.allProducts| && s.allProducts[k] == p;
    ProductStore.ReplaceWithSelf(s.allProducts, k);
  }
}

=== FILE: product_drop_down.dfy ===
/**
 * The per-row actions menu of the product table: Copy adds a renamed copy,
 * Edit opens the product dialog on the row, Delete opens the confirmation
 * dialog on the row.
 */
module ProductDropDown {
  import opened Wrappers
  import opened Columns
  import opened ProductStore

  const CopyLabel := "Copy"
  const EditLabel := "Edit"
  const DeleteLabel := "Delete"

  /** The menu in display order. */
  const MenuLabels: seq<string> := [CopyLabel, EditLabel, DeleteLabel]

  const CopySuffix := " (copy)"

  /** The copied record: a fresh id and timestamp, the name suffixed, everything else kept. */
  function CopyOf(row: Product, freshId: string, now: int): (c: Product)
    ensures c.id == freshId && c.createdAt == now
    ensures |c.name| == |row.name| + |CopySuffix|
    ensures c.name[..|row.name|] == row.name && c.name[|row.name|..] == CopySuffix
    ensures c.(id := row.id, name := row.name, createdAt := row.createdAt) == row
  {
    row.(id := freshId, name := row.name + CopySuffix, createdAt := now)
  }

  /**
   * `handleClickedItem`: the three label tests run in sequence (Delete, Copy,
   * Edit); a label matches at most one of them.
   */
  function HandleClickedItem(s: State, item: string, row: Product, freshId: string, now: int): (r: State)
    ensures item == DeleteLabel ==> r == s.(openDialog := true, selectedProduct := Some(row))
    ensures item == EditLabel ==> r == s.(openProductDialog := true, selectedProduct := Some(row))
    ensures item == CopyLabel ==>
              && |r.allProducts| == |s.allProducts| + 1
              && r.allProducts[..|s.allProducts|] == s.allProducts
              && r.allProducts[|s.allProducts|] == CopyOf(row, freshId, now)
              && !r.isLoading
              && r.(allProducts := s.allProducts, isLoading := s.isLoading) == s
    ensures item !in MenuLabels ==> r == s
  {
    var afterDelete := if item == DeleteLabel then SetSelectedProduct(SetOpenDialog(s, true), Some(row)) else s;
    var afterCopy := if item == CopyLabel then AddProduct(afterDelete, CopyOf(row, freshId, now)).state else afterDelete;
    if item == EditLabel then SetSelectedProduct(SetOpenProductDialog(afterCopy, true), Some(row)) else afterCopy
  }

  /** The labels are pairwise distinct, so every menu item runs exactly one branch. */
  lemma LabelsDistinct()
    ensures forall i, j :: 0 <= i < j < |MenuLabels| ==> MenuLabels[i] != MenuLabels[j]
  {
  }

  /** A copy never shares its record with the original, whatever the new id: the names differ. */
  lemma CopyDiffersFromOriginal(row: Product, freshId: string, now: int)
    ensures CopyOf(row, freshId, now) != row
  {
    assert |CopyOf(row, freshId, now).name| != |row.name|;
  }

  /** Copying a row with a fresh id keeps the catalogue's ids unique and the original in place. */
  lemma CopyKeepsUniqueIds(s: State, k: nat, freshId: string, now: int)
    requires UniqueIds(s.allProducts)
    requires k < |s.allProducts|
    requires freshId !in Ids(s.allProducts)
    ensures var r := HandleClickedItem(s, CopyLabel, s.allProducts[k], freshId, now);
            UniqueIds(r.allProducts) && r.allProducts[k] == s.allProducts[k]
  {
    var row := s.allProducts[k];
    AddKeepsUniqueIds(s, CopyOf(row, freshId, now));
  }
}

=== FILE: product_store.dfy ===
/**
 * The product store: the in-memory catalogue and the dialog/selection flags
 * the product table's event handlers share. Every operation is one atomic
 * transition; the artificial delay before each mutation is not modelled, so
 * the busy flag is observed only in its final state (cleared).
 */
module ProductStore {
  import opened Wrappers
  import opened Columns

  datatype State = State(
    allProducts: seq<Product>,
    isLoading: bool,
    openDialog: bool,
    openProductDialog: bool,
    selectedProduct: Option<Product>)

  /** The state after an operation and the `success` field it resolved with. */
  datatype Reply = Reply(state: State, success: bool)

  /** No operation in flight, no dialog open, nothing selected. */
  predicate Quiet(s: State) {
    !s.isLoading && !s.openDialog && !s.openProductDialog && s.selectedProduct.None?
  }

  function Initial(): (s: State)
    ensures s.allProducts == []
    ensures Quiet(s)
  {
    State([], false, false, false, None)
  }

  function Ids(ps: seq<Product>): (ids: seq<string>)
    ensures |ids| == |ps|
    ensures forall i :: 0 <= i < |ps| ==> ids[i] == ps[i].id
  {
    seq(|ps|, i requires 0 <= i < |ps| => ps[i].id)
  }

  /** No two products of the list share an id. */
  predicate UniqueIds(ps: seq<Product>) {
    forall i, j :: 0 <= i < j < |ps| ==> ps[i].id != ps[j].id
  }

  // ---------------------------------------------------------------- setters

  function SetOpenDialog(s: State, open: bool): (r: State)
    ensures r.openDialog == open
    ensures r.(openDialog := s.openDialog) == s
  {
    s.(openDialog := open)
  }

  function SetOpenProductDialog(s: State, open: bool): (r: State)
    ensures r.openProductDialog == open
    ensures r.(openProductDialog := s.openProductDialog) == s
  {
    s.(openProductDialog := open)
  }

  function SetSelectedProduct(s: State, p: Option<Product>): (r: State)
    ensures r.selectedProduct == p
    ensures r.(selectedProduct := s.selectedProduct) == s
  {
    s.(selectedProduct := p)
  }

  function SetAllProducts(s: State, ps: seq<Product>): (r: State)
    ensures r.allProducts == ps
    ensures r.(allProducts := s.allProducts) == s
  {
    s.(allProducts := ps)
  }

  // -------------------------------------------------------- list operations

  /** Every product whose id is `q.id` becomes `q`; the others and the order stay. */
  function ReplaceById(ps: seq<Product>, q: Product): (r: seq<Product>)
    ensures |r| == |ps|
    ensures forall i :: 0 <= i < |ps| ==> r[i] == (if ps[i].id == q.id then q else ps[i])
  {
    if ps == [] then []
    else [if ps[0].id == q.id then q else ps[0]] + ReplaceById(ps[1..], q)
  }

  /** The products whose id is not `id`, in their original order. */
  function RemoveById(ps: seq<Product>, id: string): (r: seq<Product>)
    ensures |r| <= |ps|
    ensures forall p :: p in r <==> p in ps && p.id != id
    ensures (forall i :: 0 <= i < |ps| ==> ps[i].id != id) ==> r == ps
  {
    if ps == [] then []
    else
      var rest := RemoveById(ps[1..], id);
      assert forall i :: 1 <= i < |ps| ==> ps[i] == ps[1..][i - 1];
      assert ps == [ps[0]] + ps[1..];
      if ps[0].id == id then rest else [ps[0]] + rest
  }

  /** Removal distributes over concatenation: the survivors keep their relative order. */
  lemma {:induction false} RemoveByIdAppend(a: seq<Product>, b: seq<Product>, id: string)
    ensures RemoveById(a + b, id) == RemoveById(a, id) + RemoveById(b, id)
  {
    if a == [] {
      assert a + b == b;
    } else {
      assert (a + b)[1..] == a[1..] + b;
      RemoveByIdAppend(a[1..], b, id);
    }
  }

  /** With unique ids, removing a present id shortens the list by exactly one. */
  lemma {:induction false} RemoveUniqueId(ps: seq<Product>, k: nat)
    requires UniqueIds(ps)
    requires k < |ps|
    ensures |RemoveById(ps, ps[k].id)| == |ps| - 1
  {
    var rest := ps[1..];
    assert forall i :: 1 <= i < |ps| ==> ps[i] == rest[i - 1];
    if k == 0 {
      assert forall i :: 0 <= i < |rest| ==> rest[i].id != ps[0].id;
    } else {
      assert UniqueIds(rest);
      RemoveUniqueId(rest, k - 1);
    }
  }

  // -------------------------------------------------------------- operations

  /**
   * `loadProducts`: the fetched list replaces the catalogue through the plain
   * setter; unlike the mutations it never raises or clears the busy flag.
   */
  function LoadProducts(s: State, fetched: seq<Product>): (r: State)
    ensures r.allProducts == fetched
    ensures r.isLoading == s.isLoading
    ensures r.openDialog == s.openDialog && r.openProductDialog == s.openProductDialog
    ensures r.selectedProduct == s.selectedProduct
  {
    SetAllProducts(s, fetched)
  }

  /**
   * `addProduct`: appends the product (ids are not checked), resolves with
   * success and always leaves the busy flag cleared; dialogs and selection
   * are untouched.
   */
  function AddProduct(s: State, p: Product): (r: Reply)
    ensures r.success
    ensures |r.state.allProducts| == |s.allProducts| + 1
    ensures r.state.allProducts[..|s.allProducts|] == s.allProducts
    ensures r.state.allProducts[|s.allProducts|] == p
    ensures !r.state.isLoading
    ensures r.state.openDialog == s.openDialog && r.state.openProductDialog == s.openProductDialog
    ensures r.state.selectedProduct == s.selectedProduct
  {
    Reply(s.(allProducts := s.allProducts + [p], isLoading := false), true)
  }

  /**
   * `updateProduct`: every product with the updated id is replaced, all
   * others stay in place; it resolves with success even when no id matches,
   * and always ends with the busy flag, the product dialog and the selection
   * cleared.
   */
  function UpdateProduct(s: State, q: Product): (r: Reply)
    ensures r.success
    ensures |r.state.allProducts| == |s.allProducts|
    ensures forall i :: 0 <= i < |s.allProducts| ==>
              r.state.allProducts[i] == (if s.allProducts[i].id == q.id then q else s.allProducts[i])
    ensures Ids(r.state.allProducts) == Ids(s.allProducts)
    ensures q.id !in Ids(s.allProducts) ==> r.state.allProducts == s.allProducts
    ensures !r.state.isLoading && !r.state.openProductDialog && r.state.selectedProduct.None?
    ensures r.state.openDialog == s.openDialog
  {
    var ps := ReplaceById(s.allProducts, q);
    assert q.id !in Ids(s.allProducts) ==> ps == s.allProducts;
    Reply(State(ps, false, s.openDialog, false, None), true)
  }

  /**
   * `deleteProduct`: removes every product with the id and keeps the order of
   * the rest; an absent id is a no-op that still resolves with success. It
   * always ends with the busy flag, the delete dialog and the selection cleared.
   */
  function DeleteProduct(s: State, id: string): (r: Reply)
    ensures r.success
    ensures forall p :: p in r.state.allProducts <==> p in s.allProducts && p.id != id
    ensures id !in Ids(r.state.allProducts)
    ensures id !in Ids(s.allProducts) ==> r.state.allProducts == s.allProducts
    ensures !r.state.isLoading && !r.state.openDialog && r.state.selectedProduct.None?
    ensures r.state.openProductDialog == s.openProductDialog
  {
    var ps := RemoveById(s.allProducts, id);
    assert forall i :: 0 <= i < |ps| ==> ps[i] in ps;
    Reply(State(ps, false, false, s.openProductDialog, None), true)
  }

  // ------------------------------------------------------------ properties

  /** Adding a product with a fresh id and then deleting that id restores the catalogue. */
  lemma AddThenDelete(s: State, p: Product)
    requires p.id !in Ids(s.allProducts)
    ensures DeleteProduct(AddProduct(s, p).state, p.id).state.allProducts == s.allProducts
  {
    RemoveByIdAppend(s.allProducts, [p], p.id);
    assert RemoveById([p], p.id) == [];
  }

  /** Adding a product with a fresh id keeps the ids unique. */
  lemma AddKeepsUniqueIds(s: State, p: Product)
    requires UniqueIds(s.allProducts)
    requires p.id !in Ids(s.allProducts)
    ensures UniqueIds(AddProduct(s, p).state.allProducts)
  {
    var ps := AddProduct(s, p).state.allProducts;
    forall i, j | 0 <= i < j < |ps| ensures ps[i].id != ps[j].id {
      if j == |s.allProducts| {
        assert Ids(s.allProducts)[i] == ps[i].id;
      } else {
        assert ps[i] == s.allProducts[i] && ps[j] == s.allProducts[j];
      }
    }
  }

  /** Updating keeps the ids unique. */
  lemma UpdateKeepsUniqueIds(s: State, q: Product)
    requires UniqueIds(s.allProducts)
    ensures UniqueIds(UpdateProduct(s, q).state.allProducts)
  {
    var u := UpdateProduct(s, q).state.allProducts;
    assert forall i :: 0 <= i < |u| ==> u[i].id == Ids(u)[i] == Ids(s.allProducts)[i] == s.allProducts[i].id;
  }

  /** Deleting keeps the ids unique, and removes exactly one product when the id is present. */
  lemma DeleteKeepsUniqueIds(s: State, id: string)
    requires UniqueIds(s.allProducts)
    ensures UniqueIds(DeleteProduct(s, id).state.allProducts)
    ensures id in Ids(s.allProducts) ==> |DeleteProduct(s, id).state.allProducts| == |s.allProducts| - 1
  {
    RemoveKeepsUnique(s.allProducts, id);
    if id in Ids(s.allProducts) {
      var k :| 0 <= k < |s.allProducts| && Ids(s.allProducts)[k] == id;
      RemoveUniqueId(s.allProducts, k);
    }
  }

  lemma {:induction false} RemoveKeepsUnique(ps: seq<Product>, id: string)
    requires UniqueIds(ps)
    ensures UniqueIds(RemoveById(ps, id))
  {
    if ps != [] {
      var rest := ps[1..];
      assert forall i :: 1 <= i < |ps| ==> ps[i] == rest[i - 1];
      assert UniqueIds(rest);
      RemoveKeepsUnique(rest, id);
      var r := RemoveById(rest, id);
      if ps[0].id != id {
        assert forall p :: p in r ==> p in rest;
        assert forall i :: 0 <= i < |rest| ==> rest[i].id != ps[0].id;
        assert forall i :: 0 <= i < |r| ==> r[i] in rest;
        assert UniqueIds([ps[0]] + r);
      }
    }
  }

  /** Submitting a product that is already in a uniquely-keyed catalogue changes nothing in it. */
  lemma ReplaceWithSelf(ps: seq<Product>, k: nat)
    requires UniqueIds(ps)
    requires k < |ps|
    ensures ReplaceById(ps, ps[k]) == ps
  {
    var r := ReplaceById(ps, ps[k]);
    forall i | 0 <= i < |ps| ensures r[i] == ps[i] {
      if ps[i].id == ps[k].id {
        assert i == k;
      }
    }
  }

  /** Deleting twice is deleting once. */
  lemma DeleteIdempotent(s: State, id: string)
    ensures var once := DeleteProduct(s, id).state;
            DeleteProduct(once, id).state == once
  {
  }
}

=== FILE: protected_route.dfy ===
/** The route guard in front of the home page. */
module ProtectedRoute {
  import opened Wrappers
  import opened AuthStore

  datatype Outcome = Navigate(to: string, replace: bool) | RenderChildren

  const LoginPath := "/login"

  /** No user: redirect to the login page, replacing the history entry; a user: render the page. */
  function Gate(s: AuthState): (o: Outcome)
    ensures o.RenderChildren? <==> s.user.Some?
    ensures o.Navigate? ==> o.to == LoginPath && o.replace
  {
    if s.user.None? then Navigate(LoginPath, true) else RenderChildren
  }

  /** The decision looks at the user only, never at the token. */
  lemma GateIgnoresToken(s: AuthState, t: Option<string>)
    ensures Gate(s.(token := t)) == Gate(s)
  {
  }

  /** After any history, logging out locks the page and logging in opens it. */
  lemma GateAfterSession(s: AuthState, es: seq<Event>, u: User, t: string)
    ensures Gate(Run(s, es + [LogoutEvent])).Navigate?
    ensures Gate(Run(s, es + [LoginEvent(u, t)])) == RenderChildren
  {
    LastEventDecides(s, es, u, t);
  }
}

=== FILE: selection.dfy ===
/**
 * A filter selection kept as a list used as a set: the checkbox toggle and
 * the clear action shared by the category and status filters.
 */
module Selection {

  /** No value occurs twice. */
  predicate Distinct(sel: seq<string>) {
    forall i, j :: 0 <= i < j < |sel| ==> sel[i] != sel[j]
  }

  /** `sel.filter(x => x !== v)`: every occurrence of `v` dropped, the rest in order. */
  function Without(sel: seq<string>, v: string): (r: seq<string>)
    ensures |r| <= |sel|
    ensures forall x :: x in r <==> x in sel && x != v
    ensures v !in sel ==> r == sel
  {
    if sel == [] then []
    else
      var rest := Without(sel[1..], v);
      assert sel == [sel[0]] + sel[1..];
      if sel[0] == v then rest else [sel[0]] + rest
  }

  /** Dropping a value distributes over concatenation: the survivors keep their order. */
  lemma {:induction false} WithoutAppend(a: seq<string>, b: seq<string>, v: string)
    ensures Without(a + b, v) == Without(a, v) + Without(b, v)
  {
    if a == [] {
      assert a + b == b;
    } else {
      assert (a + b)[1..] == a[1..] + b;
      WithoutAppend(a[1..], b, v);
    }
  }

  lemma {:induction false} WithoutKeepsDistinct(sel: seq<string>, v: string)
    requires Distinct(sel)
    ensures Distinct(Without(sel, v))
  {
    if sel != [] {
      var rest := sel[1..];
      assert forall i :: 1 <= i < |sel| ==> sel[i] == rest[i - 1];
      assert Distinct(rest);
      WithoutKeepsDistinct(rest, v);
      var r := Without(rest, v);
      if sel[0] != v {
        assert sel[0] !in rest;
        assert forall i :: 0 <= i < |r| ==> r[i] in rest;
      }
    }
  }

  /**
   * The checkbox handler: a selected value is dropped (every occurrence), an
   * unselected one is appended at the end.
   */
  function Toggle(sel: seq<string>, v: string): (r: seq<string>)
    ensures v in sel ==> r == Without(sel, v)
    ensures v !in sel ==> |r| == |sel| + 1 && r[..|sel|] == sel && r[|sel|] == v
    ensures v in r <==> v !in sel
    ensures forall x :: x != v ==> (x in r <==> x in sel)
  {
    if v in sel then Without(sel, v) else sel + [v]
  }

  /** The clear action. */
  function Clear(): (r: seq<string>)
    ensures |r| == 0
  {
    []
  }

  /** Toggling an unselected value twice restores the selection. */
  lemma ToggleTwiceRestores(sel: seq<string>, v: string)
    requires v !in sel
    ensures Toggle(Toggle(sel, v), v) == sel
  {
    WithoutAppend(sel, [v], v);
    assert Without([v], v) == [];
  }

  /** A selection without duplicates stays without duplicates. */
  lemma ToggleKeepsDistinct(sel: seq<string>, v: string)
    requires Distinct(sel)
    ensures Distinct(Toggle(sel, v))
  {
    if v in sel {
      WithoutKeepsDistinct(sel, v);
    }
  }

  /** In a selection without duplicates, toggling a selected value removes exactly one entry. */
  lemma {:induction false} ToggleOffDistinct(sel: seq<string>, v: string)
    requires Distinct(sel)
    requires v in sel
    ensures |Toggle(sel, v)| == |sel| - 1
  {
    var rest := sel[1..];
    assert forall i :: 1 <= i < |sel| ==> sel[i] == rest[i - 1];
    assert Distinct(rest);
    if sel[0] == v {
      assert v !in rest;
    } else {
      ToggleOffDistinct(rest, v);
    }
  }
}

=== FILE: status_drop_down.dfy ===
/**
 * The status filter: its fixed option list with colours and glyphs. Its
 * checkbox toggle and clear action are the same code as the category filter's
 * and are `Selection.Toggle` and `Selection.Clear`.
 */
module StatusDropDown {
  import opened Wrappers
  import opened Columns

  datatype StatusOption = StatusOption(value: string, caption: string, glyph: Glyph)

  const Statuses: seq<StatusOption> := [
    StatusOption("Published", "Published", CheckGlyph),
    StatusOption("Inactive", "Inactive", XGlyph),
    StatusOption("Draft", "Draft", InboxGlyph)
  ]

  const Gray100 := "text-gray-600 bg-gray-100"

  /** `returnColor`: the colour class of a status option; no class for any other string. */
  function ReturnColor(status: string): (r: Option<string>)
    ensures r.Some? <==> ParseStatus(status).Some?
    ensures status == StatusName(Published) ==> r == Some(Green)
    ensures status == StatusName(Inactive) ==> r == Some(Red)
    ensures status == StatusName(Draft) ==> r == Some(Gray100)
  {
    if status == "Published" then Some(Green)
    else if status == "Inactive" then Some(Red)
    else if status == "Draft" then Some(Gray100)
    else None
  }

  /** The options are exactly the record statuses, in order, with the table cell's glyphs. */
  lemma OptionsFollowProductStatuses()
    ensures |Statuses| == |AllStatuses|
    ensures forall i :: 0 <= i < |Statuses| ==>
              && Statuses[i].value == Statuses[i].caption == StatusName(AllStatuses[i])
              && Statuses[i].glyph == StatusCell(Statuses[i].value).glyph
  {
  }

  /**
   * The filter's colours agree with the table cell's for Published and
   * Inactive; Draft is a lighter gray here than in the table.
   */
  lemma ColoursAgainstStatusCell(s: Status)
    ensures s != Draft ==> ReturnColor(StatusName(s)) == Some(StatusCell(StatusName(s)).colorClass)
    ensures s == Draft ==> ReturnColor(StatusName(s)) != Some(StatusCell(StatusName(s)).colorClass)
  {
  }
}

=== FILE: wrappers.dfy ===
/** Failure-compatible result types shared by every module of the catalogue model. */
module Wrappers {

  /** A value that may be missing: the model of a TypeScript `T | null`. */
  datatype Option<+T> = None | Some(value: T)

  /** Either a value or the error a thrown exception or a failed validation carries. */
  datatype Result<+T, +E> = Success(value: T) | Failure(error: E)
}
